=== FILE: README.md ===
# tableToGedcom in Dafny

This project models `tableToGedcom.py`, the core of a converter. The converter reads a family tree
given as spreadsheet rows (one person per row, with the IDs of the father and the mother) and
prints a GEDCOM 5.5.1 file. The file has:

- the header, with the time of the run and the submitter;
- one INDI record per row;
- one FAM record per distinct parent pair, numbered in order of discovery;
- one OBJE record per picture found on disk;
- the trailer.

The model is organised as follows:

- `wrappers.dfy`: `Option` and `Result`. A Python exception becomes `Err` with `ValueError`,
  `IndexError` or `KeyError`.
- `text.dfy`: the Python string operations the converter relies on. These are `split`, `join`,
  `strip`, `int()`, `str()`, `upper()`, slicing and the `'{:,.0f}'` format.
- `gedcom_lines.dfy`: a GEDCOM line as a value (level, cross-reference, tag, value) and its exact
  printed text. `WithTag` selects the lines with one tag. `Records` gives the level-0 lines, that
  is, the first line of every record.
- `formatters.dfy`: the person row and `hasKnownParent`, `convertDate`, the two name helpers,
  `printPlace`, and the birth and death blocks.
- `registry.dfy`: the family registry as a value. It is what `FamilyMapping` holds after a
  sequence of `addChildren` calls, together with the spouse map and the FAM records derived from it.
- `families.dfy`: the classes `Family` and `FamilyMapping`. Their methods change state in place.
  Each method is proved to keep a ghost registry equal to the registry functions.
- `family_tree.dfy`: the class `FamilyTreeMapping`, covering its constructor, `__getFAMC` and
  `printGedcom`. The whole printed document is a value (`Gedcom`). `printGedcom` is proved to
  print exactly that document, or to raise the first error it would raise.
- `tree_properties.dfy`: what the converter promises about a whole table:
  - the synthetic IDs;
  - child and spouse membership;
  - the FAMC and OBJE pointers;
  - the SEX and DEAT lines;
  - the order of the records;
  - the FAMC finding below.

Printing is modelled as the sequence of printed lines. The clock (`datetime.now()`) becomes two
parameters, `date` and `time`. `os.path.isfile` becomes `existing`, the set of picture paths
that exist.

## Model

| member | source | states |
|---|---|---|
| Text.Split | tableToGedcom.py:30 | `split('/')` gives at least one piece and no piece holds the separator; a text without the separator is one piece, a text with it gives at least two |
| Text.JoinSplit | tableToGedcom.py:30 | joining the pieces of `split(sep)` with `sep` gives back the original text |
| Text.TrimStartDrops | tableToGedcom.py:33 | `lstrip()` keeps a suffix and drops only white space |
| Text.TrimEndDrops | tableToGedcom.py:33 | `rstrip()` keeps a prefix and drops only white space |
| Text.Words | tableToGedcom.py:45 | `split()` gives words that are non-empty and hold no white space |
| Text.WordsOfSpace | tableToGedcom.py:45 | a text of white space only splits into no words |
| Text.WordsStep | tableToGedcom.py:45 | leading white space is skipped; a word that ends at white space or at the end of the text is the first word, followed by the words of the rest |
| Text.WordsOfTwo | tableToGedcom.py:45 | two space-free tokens separated by a blank split into exactly those two tokens |
| Text.Inner | tableToGedcom.py:46 | `s[1:-1]` drops the first and the last character, and is empty for texts shorter than 2 |
| Text.NatText | tableToGedcom.py:84 | `str(n)` of a natural number: ASCII digits only, no leading zero unless n is 0, and the digits read back as n |
| Text.ParseIntText | tableToGedcom.py:31 | `int(str(n)) == n` for every integer |
| Text.UpperAscii | tableToGedcom.py:32 | `upper()` keeps the length and turns each ASCII lower-case letter into its capital |
| Text.GroupedDiffers | tableToGedcom.py:156 | from 1000 on, `'{:,.0f}'` holds a comma and so differs from `str(n)` |
| Formatters.MonthAbbrevTable | tableToGedcom.py:32 | `month_name[m][:3].upper()` is JAN…DEC for months 1 to 12, and "" for 0 |
| Formatters.ConvertDate | tableToGedcom.py:27-33 | an integer cell is returned unchanged; a text without '/' converts to the integer it spells or raises ValueError; a text with '/' converts exactly when its second-to-last piece is an integer in -13..12; a converted text date holds no '/' |
| Formatters.HasKnownParent | tableToGedcom.py:90 | a row has a known parent exactly when its father ID or its mother ID is truthy, that is non-empty |
| Formatters.DateOfYear | tableToGedcom.py:29-31 | a text without '/' that reads as an integer converts to that integer |
| Formatters.YearNotNumber | tableToGedcom.py:31 | a text without '/' that is no integer raises ValueError |
| Formatters.YearNumberOrText | tableToGedcom.py:29-31 | a year given as a number and the same year given as text print the same DATE value |
| Formatters.DateOfDayMonthYear | tableToGedcom.py:27-33 | "dd/mm/yyyy" becomes "dd MON yyyy" for a month 1 to 12 |
| Formatters.DateOfMonthYear | tableToGedcom.py:30-33 | "mm/yyyy" becomes "MON yyyy" for a month 1 to 12 |
| Formatters.DateBadMonth | tableToGedcom.py:32 | a month piece that is no integer raises ValueError; one outside -13..12 raises IndexError |
| Formatters.DateExample | tableToGedcom.py:28 | "08/04/1931" prints as "08 APR 1931" |
| Formatters.SurnameWithPrefix | tableToGedcom.py:35-37 | the surname ends with the last name; it is "title " followed by the last name when there is a title, and the last name alone otherwise |
| Formatters.GivenNameWithMidname | tableToGedcom.py:39-41 | the given name ends with the first name; it is "midname " followed by the first name when there is a midname, and the first name alone otherwise |
| Formatters.PlaceLines | tableToGedcom.py:43-50 | an empty place prints nothing; it raises IndexError exactly when a non-empty place has fewer than two tokens; otherwise it prints 4 lines and PLAC and CITY carry the same city |
| Formatters.BracketedPlace | tableToGedcom.py:43-50 | "[country] [city]" gives PLAC city, ADDR, CITY city, CTRY country |
| Formatters.PlaceOfTokens | tableToGedcom.py:43-50 | the token rule: the first white-space separated token without its first and last character is the country, the second one likewise the city (on PLAC and CITY), and later tokens are ignored |
| Formatters.SpacedCountry | tableToGedcom.py:43-50 | a bracketed country holding a blank is cut at the blank: "[a b] [city]" prints country a without its last character and city b without its first, so "[United Kingdom] [London]" prints country "Unite" and city "ingdom" |
| Formatters.PlaceExample | tableToGedcom.py:43-50 | "[HU] [Budapest]" gives city Budapest and country HU |
| Formatters.EventLines | tableToGedcom.py:141-152 | an event block fails exactly when its date or its place fails, and with the date's error when both would (the date is converted first); otherwise it is the event line, `2 DATE` with the converted date as '{}'.format prints it, then the place lines |
| Formatters.EventWithoutPlace | tableToGedcom.py:141-143 | an event with no place is exactly the event line and the DATE line holding the converted date |
| Formatters.EventExample | tableToGedcom.py:141-143 | a date of birth "08/04/1931" with no place prints `1 BIRT` and `2 DATE 08 APR 1931` |
| Formatters.BirthLines | tableToGedcom.py:141-144 | no birth block without a date of birth; with one, the block is the BIRT event block of the date and place of birth (so it fails exactly when either fails); a block that is printed starts with `1 BIRT` |
| Formatters.DeathLines | tableToGedcom.py:146-152 | the death block is empty exactly when no date of death is given and 'is living?' is not 0; with a date of death it is the DEAT event block of the date and place of death (so it fails exactly when either fails); otherwise it is `1 DEAT Y`; it can fail only when a date is given |
| Registry.Find | tableToGedcom.py:68 | the `in` test on the dictionary: the position of the family with the key, or none with that key |
| Registry.Register | tableToGedcom.py:67-71 | a known pair gets the child appended to its family and nothing else changes; a new pair gets a family numbered by the size plus one with the child as its only child; well-formedness is kept |
| Registry.BuildRegistry | tableToGedcom.py:109-111 | after any sequence of registrations, families are numbered 1..n in order, each has at least one child, and no two share a key |
| Registry.BuildKeys | tableToGedcom.py:67-71 | the keys in numbering order are the distinct parent pairs, in order of first appearance |
| Registry.BuildChildren | tableToGedcom.py:67-71 | each family's children are exactly the children registered under its key, in registration order |
| Registry.ChildrenOfMembers | tableToGedcom.py:69-71 | x is a registered child of a key exactly when that registration was made |
| Registry.FamilyCount | tableToGedcom.py:67-71 | the number of families equals the number of distinct parent pairs registered |
| Registry.SpouseIdsMembers | tableToGedcom.py:73-80 | family x is in p's spouse list exactly when p is its father or its mother |
| Registry.SpouseIdsAscending | tableToGedcom.py:73-80 | a spouse list is strictly ascending when nobody is both parents of one family |
| Registry.SpouseIdsCount | tableToGedcom.py:73-80 | when nobody is both the father and the mother of one family, a spouse list has one entry per family in which the person is a parent; otherwise the source appends that family twice (lines 76-79) |
| Registry.SpouseMapEntry | tableToGedcom.py:73-80 | p is a key of the spouse map exactly when p is non-empty and a parent somewhere; its value is its spouse list |
| Registry.SpouseMapMeaning | tableToGedcom.py:73-80 | the map built family by family, father before mother, is the spouse map |
| Registry.SpouseMap | tableToGedcom.py:73-80 | the empty ID is never a key of the spouse map, and no key maps to an empty list |
| Registry.FamRecord | tableToGedcom.py:84-88 | a FAM record raises KeyError exactly when a non-empty HUSB or WIFE ID has no synthetic ID, naming the father's ID when his is missing and the mother's otherwise |
| Registry.FamRecordsFail | tableToGedcom.py:82-88 | printing the families raises exactly when some family names a parent that is no row |
| Registry.FamRecords | tableToGedcom.py:82-88 | every HUSB and WIFE line of the printed FAM records points at the synthetic ID of a person that has a row (which parent each line names is Registry.FamRecordParents) |
| Registry.FamRecordRoles | tableToGedcom.py:85-86 | the HUSB and WIFE lines of one FAM record point at the synthetic IDs of known people (which parent each line names is Registry.FamRecordParents) |
| Registry.FamRecordParents | tableToGedcom.py:85-86 | a printed FAM record has exactly one HUSB line, pointing at the synthetic ID of the family's father, when the father is known and none otherwise; likewise one WIFE line for the mother |
| Registry.FamRecordShape | tableToGedcom.py:84-88 | each FAM record is one record headed `@F<id>@ FAM` |
| Registry.FamRecordsHeaders | tableToGedcom.py:83-84 | the FAM records appear in discovery order, one per family |
| Registry.RegisterExisting | tableToGedcom.py:68-69 | registering under an existing key appends the child to that family only |
| Registry.RegisterNew | tableToGedcom.py:70-71 | registering a new key appends a family numbered `len + 1` |
| Families.Family.constructor | tableToGedcom.py:52-55 | a family with the given number and children |
| Families.Family.AddChildren | tableToGedcom.py:57-58 | the children list becomes the old list followed by the child |
| Families.IndexOfKey | tableToGedcom.py:68 | the dictionary lookup: the position of the item with the key, or no item has the key |
| Families.FamilyMapping.constructor | tableToGedcom.py:64-65 | an empty dictionary, whose registry is empty |
| Families.FamilyMapping.AddChildren | tableToGedcom.py:67-71 | the new registry is `Register` of the old one; the dictionary stays valid, the number of family i is i + 1, and the other families keep their children |
| Families.FamilyMapping.GetSpouseMap | tableToGedcom.py:73-80 | the result is the spouse map of the registry, with the meaning `IsSpouseMap` gives it |
| Families.FamilyMapping.PrintGedcom | tableToGedcom.py:82-88 | prints the FAM records of all families in discovery order, or raises the KeyError of the first unknown parent |
| Families.PrintFamily | tableToGedcom.py:84-88 | prints one FAM record: header, HUSB and WIFE when known, then one CHIL per child |
| Families.PrintFamilyHead | tableToGedcom.py:84-86 | prints the FAM line, then HUSB and WIFE for the parents that are known |
| Families.PrintChildren | tableToGedcom.py:87-88 | prints one CHIL line per child, in the order the children were added |
| FamilyTree.IdMap | tableToGedcom.py:106 | every row's ID has a synthetic ID |
| FamilyTree.Famc | tableToGedcom.py:115-118 | None exactly without a known parent; KeyError exactly when a known parent pair has no family; otherwise the number of a family keyed by that pair |
| FamilyTree.JoinPathParts | tableToGedcom.py:121 | `os.path.join`: the path ends with the name; an absolute name is the whole path; otherwise the path starts with the directory and a '/' separates the two |
| FamilyTree.PicNameParts | tableToGedcom.py:120-121 | the picture path ends with the lower-cased, transliterated ID and `.jpg`, and starts with the picture directory unless the ID starts with '/' |
| FamilyTree.RowLines | tableToGedcom.py:128-162 | one row's record fails exactly when the FAMC lookup, the birth block or the death block fails; with the lookup done, a birth error comes before a death error; a record starts with `@I<gid>@ INDI` |
| FamilyTree.Gedcom | tableToGedcom.py:123-169 | the document fails exactly when an INDI record fails or a family names an unknown parent; a printed document starts with the twelve header lines and ends with TRLR |
| FamilyTree.ObjeRecords | tableToGedcom.py:165-168 | three lines per picture |
| FamilyTree.Header | tableToGedcom.py:12-23 | the header has twelve lines |
| FamilyTree.HeadDetails | tableToGedcom.py:13-21 | the nine lines after `0 HEAD` are all nested |
| FamilyTree.RegistrationsStep | tableToGedcom.py:109-111 | one more row registers its parent pair and synthetic ID when it has a known parent, and changes nothing otherwise |
| FamilyTree.IndiSectionStep | tableToGedcom.py:128-162 | one more row appends its INDI record, or its error becomes the section's |
| FamilyTree.PicturesPrefix | tableToGedcom.py:160-162 | one more row appends its picture path exactly when the file exists |
| FamilyTree.FamilyTreeMapping.constructor | tableToGedcom.py:97-113 | keeps the table and the picture directory; the ID map is `IdMap(t)`, the registry holds the rows' registrations and the spouse map is derived from it |
| FamilyTree.FamilyTreeMapping.GetFAMC | tableToGedcom.py:115-118 | the result is `Famc`: None without a known parent, else the number of the family with that key, else KeyError |
| FamilyTree.FamilyTreeMapping.PrintGedcom | tableToGedcom.py:123-169 | prints exactly the rendered `Gedcom` document, or raises its first error |
| FamilyTree.FamilyTreeMapping.PrintRow | tableToGedcom.py:129-162 | prints one row's INDI record, with its FAMC, FAMS and OBJE links |
| FamilyTree.FamilyTreeMapping.PrintIndividuals | tableToGedcom.py:125-162 | prints all INDI records in row order and collects the picture paths in row order |
| FamilyTree.Derive | tableToGedcom.py:104-113 | the state the constructor computes: the ID map, a valid family mapping holding `FamiliesOf(t)`, and its spouse map |
| FamilyTree.RegisterRows | tableToGedcom.py:109-111 | the constructor loop leaves the registry that the rows' registrations build |
| FamilyTree.RegisterRow | tableToGedcom.py:109-111 | one pass of the constructor loop: a row with a known parent is registered under its parent pair with its synthetic ID; any other row changes nothing |
| FamilyTree.PrintObjects | tableToGedcom.py:165-168 | prints the OBJE records of the collected pictures |
| FamilyTree.PrintIndividual | tableToGedcom.py:129-152 | prints the INDI record of one row, or raises the error of its date or place |
| FamilyTree.PrintLinks | tableToGedcom.py:154-162 | prints the FAMC line, the FAMS lines and the OBJE line |
| TreeProperties.IdMapDomain | tableToGedcom.py:106 | an ID has a synthetic ID exactly when some row carries it |
| TreeProperties.IdMapLastWins | tableToGedcom.py:106 | with repeated IDs, the synthetic ID is that of the last row with the ID |
| TreeProperties.IdMapDistinct | tableToGedcom.py:106 | with distinct IDs, row i gets synthetic ID i + 1 |
| TreeProperties.RegistrationMembers | tableToGedcom.py:109-111 | a registration is made exactly for the rows with a known parent |
| TreeProperties.ChildMembership | tableToGedcom.py:109-111 | x is a child of family f exactly when some row with f's parent pair has synthetic ID x |
| TreeProperties.PairRegistered | tableToGedcom.py:109-111 | every row with a known parent has a registered family |
| TreeProperties.FamcOfRow | tableToGedcom.py:115-118 | for every row, `__getFAMC` does not raise; it is None exactly without a known parent; otherwise it is a family with the row's parents that lists the row as a child |
| TreeProperties.ChildOfOwnFamilyOnly | tableToGedcom.py:109-111 | with distinct IDs, row i is a child of family f exactly when it has a known parent and f's key is its pair |
| TreeProperties.ChildInOneFamily | tableToGedcom.py:109-111 | with distinct IDs, nobody is a child in two families |
| TreeProperties.FamilyCountOfRows | tableToGedcom.py:109-111 | there are as many families as distinct parent pairs among the rows with a known parent |
| TreeProperties.FamsMeaning | tableToGedcom.py:157-159 | x is among p's FAMS numbers exactly when p is non-empty and the father or the mother of family x |
| TreeProperties.PicturesPrefixOf | tableToGedcom.py:160-162 | the pictures of the first rows are a prefix of all pictures |
| TreeProperties.ObjeRecordAt | tableToGedcom.py:165-167 | OBJE record k is headed `@O<k>@` and holds the k-th path |
| TreeProperties.PictureIndex | tableToGedcom.py:160-162 | a row has an OBJE number exactly when its picture exists, and that number indexes its path |
| TreeProperties.PicturePointer | tableToGedcom.py:160-168 | a row's `OBJE @O<k>@` line, with OBJE numbered from 0, points at the record that holds the row's picture |
| TreeProperties.PlaceTags | tableToGedcom.py:43-50 | place lines carry PLAC, ADDR, CITY and CTRY, all at level 2 or deeper |
| TreeProperties.EventTags | tableToGedcom.py:141-149 | a birth or death block is nested and carries only its event, DATE and place tags |
| TreeProperties.EventHead | tableToGedcom.py:142-149 | an event block opens with its event line, and no later line repeats the event tag |
| TreeProperties.NameTags | tableToGedcom.py:129-134 | the name lines start with `@I<gid>@ INDI` and all later lines are nested |
| TreeProperties.ContactTags | tableToGedcom.py:136-139 | only EMAIL and WWW, nested |
| TreeProperties.LinkTags | tableToGedcom.py:154-162 | only FAMC, FAMS and OBJE, nested |
| TreeProperties.IndiParts | tableToGedcom.py:128-162 | an INDI record is head, birth block, death block and links, in that order |
| TreeProperties.SexOfIndividual | tableToGedcom.py:135 | each INDI record has exactly one SEX line: M when the gender is 0, F otherwise |
| TreeProperties.FamsOfIndividual | tableToGedcom.py:157-159 | the FAMS lines of an INDI record are one per entry of the person's spouse list, in the order of that list |
| TreeProperties.DeathOfIndividual | tableToGedcom.py:146-152 | an INDI record has one DEAT line when a death date is given; else `1 DEAT Y` when 'is living?' is 0; else none |
| TreeProperties.DeathBlockTag | tableToGedcom.py:146-152 | the same for the death block alone |
| TreeProperties.HeadRecords | tableToGedcom.py:129-139 | the first lines of an INDI record start one record |
| TreeProperties.IndiRecordShape | tableToGedcom.py:129-162 | an INDI record is one record, headed `@I<gid>@ INDI` |
| TreeProperties.IndiHeaders | tableToGedcom.py:129 | the INDI headers of the rows, in row order |
| TreeProperties.IndiSectionRecords | tableToGedcom.py:128-129 | the INDI section holds one record per row, in row order |
| TreeProperties.ObjeHeaders | tableToGedcom.py:165-166 | OBJE headers numbered 0..n-1 |
| TreeProperties.ObjeRecordsHeaders | tableToGedcom.py:165-168 | the OBJE records are numbered from 0, one per picture |
| TreeProperties.HeaderRecords | tableToGedcom.py:12-23 | the header holds two records, HEAD and SUBM |
| TreeProperties.DocumentOrder | tableToGedcom.py:123-169 | the records are: header, INDI in row order, FAM in discovery order, OBJE from 0, then TRLR |
| TreeProperties.IndiNumbering | tableToGedcom.py:129 | with distinct IDs, the INDI record of row i is `@I<i+1>@` |
| TreeProperties.ParentPointerResolves | tableToGedcom.py:85-86 | every HUSB and WIFE line of the printed FAM records carries the pointer `@I<n>@` of the INDI header of some row (which row is TreeProperties.FamParentPointers) |
| TreeProperties.FamParentPointers | tableToGedcom.py:85-86 | in a printed FAM record, the only HUSB line points at the INDI header of a row whose ID is the family's father and the only WIFE line at one whose ID is its mother; an unknown parent gets no line |
| TreeProperties.ChildPointerResolves | tableToGedcom.py:87-88 | each child number x of a family, which the family's record prints as `1 CHIL @I<x>@` (Registry.ChildLines), is the INDI header of a row with the family's parents |
| TreeProperties.FamcPointerResolves | tableToGedcom.py:154-156 | the corrected FAMC line of a row with a known parent points at the FAM record of its parents |
| TreeProperties.FamcAsWrittenDangles | tableToGedcom.py:156 | from family 1000 on, the FAMC value as written matches no FAM record's identifier |
| TreeProperties.FamcAsWrittenExample | tableToGedcom.py:156 | family 1000: `@F1,000@` on the FAMC line against the record `@F1000@ FAM` |

## Left out

- Reading the spreadsheet (`xlsToGedcom.py`, pyexcel) is not part of this model. A row arrives as a value with all columns present. Missing columns (a `KeyError` in the source) are not modelled.
- The cells gender, date of birth, date of death and 'is living?' hold a text or an integer. Float cells (e.g. a date stored as 1931.0) and other types are not modelled. `gender == 0`, `is living? == 0` and truthiness follow Python for those two kinds only.
- The other columns (title, first, last and middle name, nickname, the two places, e-mail and web page) are text only. An integer in them is not modelled. In the source, an integer title, midname or name raises TypeError where it is joined to text (lines 35-41). An integer place raises AttributeError at `place.split()` (lines 43-50). An integer nickname, e-mail or web page is printed as its `str()` (lines 133-139).
- IDs are texts. An integer ID would make `ID.lower()` fail in the source, and an ID equal to 0 would count as no parent. Neither is modelled.
- `ID.lower()` is modelled for ASCII capitals only. The translation table covers the nine accented letters the source lists.
- `os.path.join` is modelled for POSIX paths.
- `os.path.isfile` is modelled as the set `existing` of paths that exist. Files that appear or vanish during the run are not modelled.
- The time of the run (`datetime.now()`) is modelled as the parameters `date` and `time`. The model does not state how they are formatted (`%d %b %Y`, upper-cased, and `%H:%M:%S`).
- `calendar.month_name` is the English one. Other locales are not modelled.
- `int()` is modelled for optional white space, an optional sign and ASCII digits. Underscores between digits and non-ASCII digits are not accepted by the model.
- The header is one multi-line string in the source. The model prints it as its twelve lines.
- `.encode().decode()` on the first name is the identity on text and is left out.
- Output is the sequence of lines that would be printed. When the source raises midway, the lines already printed are not modelled; the result is only the error.
- The source keeps the family mapping as a class-level attribute, so it is shared by all instances of `FamilyTreeMapping`. The model gives each instance its own registry, which is what the source gives the first instance it creates.
- Duplicate row IDs are not checked by the source. The model follows it (the last row wins, `IdMapLastWins`). The properties that need distinct IDs say so.
- `Family.children` is annotated as a list of strings in the source, but the code stores the synthetic integer IDs. The model stores integers.
- FamilyTree.FamilyTreeMapping.PrintGedcom: prints the FAMC line as `FamcLine` (`@F<n>@`), not with the `'{:,.0f}'` format of line 156, and so does every member that builds or prints the FAMC line (FamilyTree.LinkLines, FamilyTree.IndiLines, FamilyTree.RowLines, FamilyTree.IndiSection, FamilyTree.Gedcom, FamilyTree.FamilyTreeMapping.PrintRow, FamilyTree.FamilyTreeMapping.PrintIndividuals, FamilyTree.PrintIndividual, FamilyTree.PrintLinks). From family 1000 on, their output therefore differs from the source's (see Findings).
- `FamilyTree.FamilyTreeMapping.GetFAMC`: a KeyError path exists (`Famc`), and `FamcOfRow` shows that it never happens for a row of the table.
- FamilyTree.RowLines: makes the FAMC lookup before the birth and death blocks, while the source makes it after printing them (line 154). The two orders raise different errors only when the lookup raises, and `FamcOfRow` shows that it never does for a row of the table.
- Performance: the registry lookup is linear in the model. The source uses a hash table.

## Findings

| source | as written | input that shows it | evidently intended | confidence | as-written member | corrected member |
|---|---|---|---|---|---|---|
| tableToGedcom.py:156 | the FAMC pointer is formatted with `'{:,.0f}'`, which adds a thousands separator | a table with at least 1000 families: a child of family 1000 gets `1 FAMC @F1,000@`, while the record is `0 @F1000@ FAM` (line 84), so the pointer dangles | `@F{}@` as on the FAM and FAMS lines, so that FAMC points at the FAM record | not executed | FamilyTree.FamcLineAsWritten (TreeProperties.FamcAsWrittenDangles, TreeProperties.FamcAsWrittenExample) | FamilyTree.FamcLine (TreeProperties.FamcPointerResolves) |

=== FILE: families.dfy ===
/**
 * The two mutable classes of the converter: a Family, whose child list grows in place, and the
 * FamilyMapping, a dictionary from parent pairs to families that keeps insertion order. Each
 * method is proved to keep the ghost registry `entries` equal to the value the functions of
 * module Registry compute.
 */
module Families {
  import opened Wrappers
  import opened Text
  import opened GedcomLines
  import opened Registry

  /** A family: its number and the synthetic IDs of its children, in the order they were added. */
  class Family {
    const id: nat
    var children: seq<nat>

    constructor (id: nat, children: seq<nat>)
      ensures this.id == id && this.children == children
    {
      this.id := id;
      this.children := children;
    }

    /** Family.addChildren: appends one child. */
    method AddChildren(child: nat)
      modifies this
      ensures children == old(children) + [child]
    {
      children := children + [child];
    }
  }

  /** One item of the insertion-ordered dictionary parentToFamily. */
  datatype Item = Item(key: ParentPair, family: Family)

  /** The dictionary lookup: the position of the item with the given key, if any. */
  function IndexOfKey(items: seq<Item>, key: ParentPair): (r: Option<nat>)
    ensures r.Some? ==> r.value < |items| && items[r.value].key == key
    ensures r.None? ==> forall i :: 0 <= i < |items| ==> items[i].key != key
  {
    if |items| == 0 then None
    else if items[0].key == key then Some(0)
    else match IndexOfKey(items[1..], key)
      case Some(i) => Some(i + 1)
      case None => None
  }

  /**
   * FamilyMapping: parentToFamily is a dictionary that iterates in insertion order, kept as
   * the sequence of its items; entries is the registry it represents, family by family.
   */
  class FamilyMapping {
    var parentToFamily: seq<Item>
    ghost var entries: Registry
    ghost var Repr: set<object>

    /** Item i holds the key and the current number and children of family i; the Family objects are distinct because their numbers are. */
    ghost predicate Valid()
      reads this, Repr
    {
      && this in Repr
      && |parentToFamily| == |entries|
      && (forall i :: 0 <= i < |parentToFamily| ==> parentToFamily[i].family in Repr)
      && (forall i :: 0 <= i < |entries| ==>
            entries[i] == FamilyEntry(parentToFamily[i].key, parentToFamily[i].family.id, parentToFamily[i].family.children))
      && WellFormed(entries)
    }

    constructor ()
      ensures Valid() && fresh(Repr)
      ensures entries == []
    {
      parentToFamily := [];
      entries := [];
      Repr := {this};
    }

    /**
     * FamilyMapping.addChildren: a known pair gets the child appended to its family; a new pair
     * gets a new family numbered by the dictionary's size plus one.
     */
    method AddChildren(fatherId: string, motherId: string, child: nat)
      requires Valid()
      modifies Repr
      ensures Valid() && fresh(Repr - old(Repr))
      ensures entries == Register(old(entries), ParentPair(fatherId, motherId), child)
    {
      var key := ParentPair(fatherId, motherId);
      match IndexOfKey(parentToFamily, key)
      case Some(i) =>
        var fam := parentToFamily[i].family;
        RegisterExisting(entries, i, child);
        fam.AddChildren(child);
        entries := entries[i := entries[i].(children := entries[i].children + [child])];
        forall j | 0 <= j < |entries| && j != i
          ensures parentToFamily[j].family.children == old(parentToFamily[j].family.children)
        {
          assert parentToFamily[j].family.id != fam.id;
        }
      case None =>
        var fam := new Family(|parentToFamily| + 1, [child]);
        RegisterNew(entries, key, child);
        parentToFamily := parentToFamily + [Item(key, fam)];
        entries := entries + [FamilyEntry(key, |entries| + 1, [child])];
        Repr := Repr + {fam};
    }

    /** getSpouseMap: every non-empty parent ID mapped to the numbers of its families, in discovery order. */
    method GetSpouseMap() returns (res: map<string, seq<nat>>)
      requires Valid()
      ensures res == SpouseMap(entries)
      ensures IsSpouseMap(res, entries)
    {
      res := map[];
      var i := 0;
      while i < |parentToFamily|
        invariant 0 <= i <= |parentToFamily|
        invariant res == SpouseMap(entries[..i])
      {
        var k := parentToFamily[i].key;
        var v := parentToFamily[i].family;
        assert entries[i] == FamilyEntry(k, v.id, v.children);
        SpouseMapPrefix(entries, i);
        if k.father != "" {
          res := res[k.father := (if k.father in res then res[k.father] else []) + [v.id]];
        }
        if k.mother != "" {
          res := res[k.mother := (if k.mother in res then res[k.mother] else []) + [v.id]];
        }
        assert res == AddSpouse(AddSpouse(SpouseMap(entries[..i]), k.father, v.id), k.mother, v.id);
        i := i + 1;
      }
      assert entries[..i] == entries;
      SpouseMapMeaning(entries);
    }

    /** FamilyMapping.printGedcom: the FAM records of all families, in discovery order. */
    method PrintGedcom(ids: map<string, nat>) returns (r: Result<seq<string>>)
      requires Valid()
      ensures r == RenderResult(FamRecords(entries, ids))
    {
      var out: seq<string> := [];
      var i := 0;
      while i < |parentToFamily|
        invariant 0 <= i <= |parentToFamily|
        invariant FamRecords(entries[..i], ids).Ok?
        invariant out == RenderAll(FamRecords(entries[..i], ids).value)
      {
        var k := parentToFamily[i].key;
        var v := parentToFamily[i].family;
        assert entries[i] == FamilyEntry(k, v.id, v.children);
        FamRecordsPrefix(entries, i, ids);
        if k.father != "" && k.father !in ids {
          FamRecordsErrSticks(entries, i + 1, ids);
          return Err(KeyError(k.father));
        }
        if k.mother != "" && k.mother !in ids {
          FamRecordsErrSticks(entries, i + 1, ids);
          return Err(KeyError(k.mother));
        }
        var lines := PrintFamily(k, v.id, v.children, ids);
        RenderAllAppend(FamRecords(entries[..i], ids).value, FamRecord(entries[i], ids).value);
        out := out + lines;
        i := i + 1;
      }
      assert entries[..i] == entries;
      r := Ok(out);
    }
  }

  /** The body of the loop of FamilyMapping.printGedcom: one family's FAM record, all its IDs known. */
  method PrintFamily(k: ParentPair, id: nat, children: seq<nat>, ids: map<string, nat>) returns (lines: seq<string>)
    requires !Dangling(k.father, ids) && !Dangling(k.mother, ids)
    ensures FamRecord(FamilyEntry(k, id, children), ids).Ok?
    ensures lines == RenderAll(FamRecord(FamilyEntry(k, id, children), ids).value)
  {
    var head := PrintFamilyHead(k, id, ids);
    var chil := PrintChildren(children);
    RenderAllAppend([FamHeader(id)] + RoleLines("HUSB", k.father, ids) + RoleLines("WIFE", k.mother, ids), ChildLines(children));
    lines := head + chil;
  }

  /** The FAM line, then HUSB and WIFE for the parents that are known. */
  method PrintFamilyHead(k: ParentPair, id: nat, ids: map<string, nat>) returns (lines: seq<string>)
    requires !Dangling(k.father, ids) && !Dangling(k.mother, ids)
    ensures lines == RenderAll([FamHeader(id)] + RoleLines("HUSB", k.father, ids) + RoleLines("WIFE", k.mother, ids))
  {
    lines := [Render(FamHeader(id))];
    if k.father != "" {
      lines := lines + [Render(Tagged(1, "HUSB", Pointer("I" + NatText(ids[k.father]))))];
    }
    if k.mother != "" {
      lines := lines + [Render(Tagged(1, "WIFE", Pointer("I" + NatText(ids[k.mother]))))];
    }
  }

  /** The loop over a family's children: one CHIL line each, in the order they were added. */
  method PrintChildren(children: seq<nat>) returns (lines: seq<string>)
    ensures lines == RenderAll(ChildLines(children))
  {
    lines := [];
    var j := 0;
    while j < |children|
      invariant 0 <= j <= |children|
      invariant lines == RenderAll(ChildLines(children[..j]))
    {
      var chil := Tagged(1, "CHIL", Pointer("I" + NatText(children[j])));
      assert ChildLines(children[..j + 1]) == ChildLines(children[..j]) + [chil];
      RenderAllAppend(ChildLines(children[..j]), [chil]);
      lines := lines + [Render(chil)];
      j := j + 1;
    }
    assert children[..j] == children;
  }
}

=== FILE: family_tree.dfy ===
/**
 * FamilyTreeMapping: the table of people, the map from a row's ID to its synthetic GEDCOM ID,
 * the family registry built from the rows' parent pairs, and the printing of the whole GEDCOM
 * document. `Gedcom` is the document as a value; the class is proved to print exactly it.
 */
module FamilyTree {
  import opened Wrappers
  import opened Text
  import opened GedcomLines
  import opened Formatters
  import opened Registry
  import opened Families

  /** The synthetic ID map: row i's ID maps to i + 1; when two rows share an ID, the later row wins. */
  function IdMap(rows: seq<Row>): (m: map<string, nat>)
    ensures Numbered(rows, m)
  {
    if |rows| == 0 then map[]
    else
      var m' := IdMap(rows[..|rows| - 1]);
      m'[rows[|rows| - 1].id := |rows|]
  }

  /** Every row's ID has a synthetic ID. */
  predicate Numbered(rows: seq<Row>, ids: map<string, nat>) {
    forall i :: 0 <= i < |rows| ==> rows[i].id in ids
  }

  /** The key under which a row is registered: its father's and its mother's ID. */
  function PairOf(row: Row): ParentPair {
    ParentPair(row.fatherId, row.motherId)
  }

  /** The addChildren calls of the constructor's loop: one per row with a known parent, in row order. */
  function Registrations(rows: seq<Row>, ids: map<string, nat>): seq<Registration>
    requires Numbered(rows, ids)
  {
    if |rows| == 0 then []
    else
      var row := rows[|rows| - 1];
      Registrations(rows[..|rows| - 1], ids)
        + (if HasKnownParent(row) then [Registration(PairOf(row), ids[row.id])] else [])
  }

  /** The family registry the constructor builds from the table. */
  function FamiliesOf(rows: seq<Row>): Registry {
    BuildRegistry(Registrations(rows, IdMap(rows)))
  }

  /**
   * __getFAMC: the number of the family registered under the row's parent pair, None for a row
   * without a known parent, and KeyError for a pair that was never registered.
   */
  function Famc(reg: Registry, row: Row): (r: Result<Option<nat>>)
    ensures r == Ok(None) <==> !HasKnownParent(row)
    ensures r.Err? <==> HasKnownParent(row) && forall i :: 0 <= i < |reg| ==> reg[i].parents != PairOf(row)
    ensures r.Ok? && r.value.Some? ==> exists i :: 0 <= i < |reg| && reg[i].parents == PairOf(row) && reg[i].id == r.value.value
  {
    if !HasKnownParent(row) then Ok(None)
    else match Find(reg, PairOf(row))
      case Some(i) => Ok(Some(reg[i].id))
      case None => Err(KeyError(row.fatherId + "," + row.motherId))
  }

  /** Python's str.lower() on ASCII capitals; other characters are kept. */
  function LowerAscii(c: char): char {
    if 'A' <= c <= 'Z' then (c as int + 32) as char else c
  }

  /** The translation table of the constructor: é á ű ú ü ő ö ó í become e a u u u o o o i. */
  function Transliterate(c: char): char {
    match c
    case 'é' => 'e'
    case 'á' => 'a'
    case 'ű' => 'u'
    case 'ú' => 'u'
    case 'ü' => 'u'
    case 'ő' => 'o'
    case 'ö' => 'o'
    case 'ó' => 'o'
    case 'í' => 'i'
    case _ => c
  }

  /** ID.lower().translate(trantab): the file-name stem of a person's picture. */
  function PictureStem(id: string): (s: string)
    ensures |s| == |id|
    ensures forall i :: 0 <= i < |id| ==> s[i] == Transliterate(LowerAscii(id[i]))
  {
    seq(|id|, i requires 0 <= i < |id| => Transliterate(LowerAscii(id[i])))
  }

  /** posixpath.join(dir, name): an absolute name replaces the directory; otherwise one '/' separates them. */
  function JoinPath(dir: string, name: string): string {
    if |name| > 0 && name[0] == '/' then name
    else if dir == "" || dir[|dir| - 1] == '/' then dir + name
    else dir + "/" + name
  }

  /**
   * The joined path ends with the name. An absolute name is the whole path; otherwise the path
   * starts with the directory and a '/' stands between the two.
   */
  lemma JoinPathParts(dir: string, name: string)
    ensures var r := JoinPath(dir, name);
      && |r| >= |name| && r[|r| - |name|..] == name
      && (|name| > 0 && name[0] == '/' ==> r == name)
      && ((|name| == 0 || name[0] != '/') ==>
            |r| >= |dir| + |name| && r[..|dir|] == dir && (dir != "" ==> r[|r| - |name| - 1] == '/'))
  {
  }

  /** __getPicName: where the picture of the person with the given ID would be. */
  function PicName(picdir: string, id: string): string {
    JoinPath(picdir, PictureStem(id) + ".jpg")
  }

  /** The picture path ends with the transliterated ID and ".jpg", and starts with the directory unless the ID starts with '/'. */
  lemma PicNameParts(picdir: string, id: string)
    ensures var r := PicName(picdir, id); var file := PictureStem(id) + ".jpg";
      && |r| >= |file| && r[|r| - |file|..] == file
      && ((id == "" || id[0] != '/') ==> |r| >= |picdir| && r[..|picdir|] == picdir)
  {
    var file := PictureStem(id) + ".jpg";
    JoinPathParts(picdir, file);
    assert id != "" ==> file[0] == Transliterate(LowerAscii(id[0]));
  }

  /** A line "<level> <tag> <value>" when value is not empty, nothing otherwise. */
  function Optional(level: nat, tag: string, value: string): (ls: seq<GedLine>)
    ensures |ls| <= 1
  {
    if value != "" then [Tagged(level, tag, value)] else []
  }

  /** The SEX line: M exactly when the gender cell is the number 0, F for everything else. */
  function SexLine(row: Row): GedLine {
    Tagged(1, "SEX", if row.gender == Int(0) then "M" else "F")
  }

  function IndiHeader(gid: nat): GedLine {
    GedLine(0, Some("I" + NatText(gid)), "INDI", None)
  }

  /** The first lines of an INDI record: identifier and names, sex, then e-mail and web page. */
  function IndiHead(row: Row, gid: nat): seq<GedLine> {
    NameLines(row, gid) + [SexLine(row)] + ContactLines(row)
  }

  /** The INDI line, the NAME line "given /surname/", GIVN, SURN, and NICK when there is a nickname. */
  function NameLines(row: Row, gid: nat): seq<GedLine> {
    [IndiHeader(gid),
     Tagged(1, "NAME", GivenNameWithMidname(row) + " /" + SurnameWithPrefix(row) + "/"),
     Tagged(2, "GIVN", row.firstName),
     Tagged(2, "SURN", row.lastName)]
    + Optional(2, "NICK", row.nickname)
  }

  /** EMAIL and WWW, each when given. */
  function ContactLines(row: Row): seq<GedLine> {
    Optional(1, "EMAIL", row.email) + Optional(1, "WWW", row.webpage)
  }

  /** The FAMC line as the corrected converter prints it: a pointer to the FAM record's identifier. */
  function FamcLine(id: nat): GedLine {
    Tagged(1, "FAMC", Pointer("F" + NatText(id)))
  }

  /**
   * The FAMC line as tableToGedcom.py writes it: the family number goes through '{:,.0f}', which
   * puts a comma between groups of three digits. The model prints FamcLine instead.
   */
  function FamcLineAsWritten(id: nat): GedLine {
    Tagged(1, "FAMC", "@F" + GroupedText(id) + "@")
  }

  function FamsLine(id: nat): GedLine {
    Tagged(1, "FAMS", Pointer("F" + NatText(id)))
  }

  /** One FAMS line per family the person is a spouse in, in the order of the spouse list. */
  function FamsLines(fams: seq<nat>): (ls: seq<GedLine>)
    ensures |ls| == |fams| && forall i :: 0 <= i < |fams| ==> ls[i] == FamsLine(fams[i])
  {
    seq(|fams|, i requires 0 <= i < |fams| => FamsLine(fams[i]))
  }

  function ObjeLine(k: nat): GedLine {
    Tagged(1, "OBJE", Pointer("O" + NatText(k)))
  }

  /** The link lines that close an INDI record: FAMC, the FAMS lines, OBJE. */
  function LinkLines(famc: Option<nat>, fams: seq<nat>, obje: Option<nat>): seq<GedLine> {
    (if famc.Some? then [FamcLine(famc.value)] else [])
    + FamsLines(fams)
    + (if obje.Some? then [ObjeLine(obje.value)] else [])
  }

  /** One INDI record; a date that cannot be converted or a place with one token raises. */
  function IndiLines(row: Row, gid: nat, famc: Option<nat>, fams: seq<nat>, obje: Option<nat>): Result<seq<GedLine>> {
    var birth :- BirthLines(row);
    var death :- DeathLines(row);
    Ok(IndiHead(row, gid) + birth + death + LinkLines(famc, fams, obje))
  }

  /** The spouse list of a person: empty when the person is no parent. */
  function FamsOf(smap: map<string, seq<nat>>, id: string): seq<nat> {
    if id in smap then smap[id] else []
  }

  /** The paths, in row order, of the pictures that exist. */
  function Pictures(rows: seq<Row>, picdir: string, existing: set<string>): seq<string> {
    if |rows| == 0 then []
    else
      var pic := PicName(picdir, rows[|rows| - 1].id);
      Pictures(rows[..|rows| - 1], picdir, existing) + (if pic in existing then [pic] else [])
  }

  /** The OBJE number of a row: the number of pictures found before it, when its own picture exists. */
  function ObjeIndex(before: seq<Row>, row: Row, picdir: string, existing: set<string>): Option<nat> {
    if PicName(picdir, row.id) in existing then Some(|Pictures(before, picdir, existing)|) else None
  }

  /** The INDI records of the rows, in row order; a row whose picture exists points at the next OBJE number. */
  function IndiSection(rows: seq<Row>, ids: map<string, nat>, reg: Registry, smap: map<string, seq<nat>>,
                       picdir: string, existing: set<string>): Result<seq<GedLine>>
    requires Numbered(rows, ids)
  {
    if |rows| == 0 then Ok([])
    else
      var rows' := rows[..|rows| - 1];
      var row := rows[|rows| - 1];
      var before :- IndiSection(rows', ids, reg, smap, picdir, existing);
      var lines :- RowLines(rows', row, ids, reg, smap, picdir, existing);
      Ok(before + lines)
  }

  /**
   * One row of the INDI section: the FAMC lookup, then the INDI record. The lookup is made
   * before the birth and death blocks, while printGedcom calls __getFAMC after printing them.
   * The order matters only when the lookup raises, and FamcOfRow shows that it never does for
   * a row of the table.
   */
  function RowLines(before: seq<Row>, row: Row, ids: map<string, nat>, reg: Registry, smap: map<string, seq<nat>>,
                    picdir: string, existing: set<string>): (r: Result<seq<GedLine>>)
    requires row.id in ids
    ensures r.Ok? <==> Famc(reg, row).Ok? && BirthLines(row).Ok? && DeathLines(row).Ok?
    ensures r.Err? && Famc(reg, row).Ok? ==>
      r.error == if BirthLines(row).Err? then BirthLines(row).error else DeathLines(row).error
    ensures r.Ok? ==> |r.value| > 0 && r.value[0] == IndiHeader(ids[row.id])
  {
    var famc :- Famc(reg, row);
    IndiLines(row, ids[row.id], famc, FamsOf(smap, row.id), ObjeIndex(before, row, picdir, existing))
  }

  /** The OBJE records: record k names the k-th existing picture. */
  function ObjeRecords(pics: seq<string>): (ls: seq<GedLine>)
    ensures |ls| == 3 * |pics|
  {
    if |pics| == 0 then []
    else ObjeRecords(pics[..|pics| - 1]) + ObjeRecord(|pics| - 1, pics[|pics| - 1])
  }

  function ObjeRecord(k: nat, path: string): seq<GedLine> {
    [ObjeHeader(k), Tagged(1, "FILE", path), Tagged(2, "FORM", "jpg")]
  }

  function ObjeHeader(k: nat): GedLine {
    GedLine(0, Some("O" + NatText(k)), "OBJE", None)
  }

  /** The header: the timestamp of the run, then the submitter record with the submitter's name. */
  function Header(date: string, time: string, first: string, last: string): (ls: seq<GedLine>)
    ensures |ls| == 12
  {
    [Bare(0, "HEAD")] + HeadDetails(date, time)
    + [GedLine(0, Some("SUBM"), "SUBM", None), Tagged(1, "NAME", first + " /" + last + "/")]
  }

  /** The lines under HEAD: source, date and time, submitter pointer, GEDCOM version and form, character set, language. */
  function HeadDetails(date: string, time: string): (ls: seq<GedLine>)
    ensures |ls| == 9 && forall i :: 0 <= i < |ls| ==> ls[i].level > 0
  {
    [Tagged(1, "SOUR", "XLSTOGEDCOM"),
     Tagged(1, "DATE", date),
     Tagged(2, "TIME", time),
     Tagged(1, "SUBM", Pointer("SUBM")),
     Bare(1, "GEDC"),
     Tagged(2, "VERS", "5.5.1"),
     Tagged(2, "FORM", "LINEAGE-LINKED"),
     Tagged(1, "CHAR", "UTF-8"),
     Tagged(1, "LANG", "English")]
  }

  function Trailer(): GedLine {
    Bare(0, "TRLR")
  }

  /**
   * FamilyTreeMapping(t, picdir).printGedcom(first, last) as a value: header, INDI records in
   * row order, FAM records in discovery order, OBJE records, trailer; or the first error raised.
   */
  function Gedcom(t: seq<Row>, picdir: string, existing: set<string>,
                  date: string, time: string, first: string, last: string): (r: Result<seq<GedLine>>)
    ensures r.Ok? <==> IndiSection(t, IdMap(t), FamiliesOf(t), SpouseMap(FamiliesOf(t)), picdir, existing).Ok?
                       && FamRecords(FamiliesOf(t), IdMap(t)).Ok?
    ensures r.Ok? ==> |r.value| >= 13 && r.value[..12] == Header(date, time, first, last)
                      && r.value[|r.value| - 1] == Trailer()
  {
    var ids := IdMap(t);
    var reg := FamiliesOf(t);
    var indi :- IndiSection(t, ids, reg, SpouseMap(reg), picdir, existing);
    var fams :- FamRecords(reg, ids);
    var head := Header(date, time, first, last);
    var objes := ObjeRecords(Pictures(t, picdir, existing));
    DocumentEnds(head, indi, fams, objes, Trailer());
    Ok(head + indi + fams + objes + [Trailer()])
  }

  /** A document made of blocks starts with its first block and ends with its last line. */
  lemma DocumentEnds(h: seq<GedLine>, a: seq<GedLine>, b: seq<GedLine>, c: seq<GedLine>, t: GedLine)
    ensures var doc := h + a + b + c + [t];
      |doc| > |h| && doc[..|h|] == h && doc[|doc| - 1] == t
  {
    assert h + a + b + c + [t] == h + (a + b + c + [t]);
  }

  /** One more row of IndiSection: its record is appended, or its error is the section's. */
  lemma IndiSectionStep(rows: seq<Row>, i: nat, ids: map<string, nat>, reg: Registry, smap: map<string, seq<nat>>,
                        picdir: string, existing: set<string>)
    requires i < |rows| && Numbered(rows, ids)
    ensures Numbered(rows[..i], ids) && Numbered(rows[..i + 1], ids)
    ensures var before := IndiSection(rows[..i], ids, reg, smap, picdir, existing);
      var row := RowLines(rows[..i], rows[i], ids, reg, smap, picdir, existing);
      before.Ok? ==>
        IndiSection(rows[..i + 1], ids, reg, smap, picdir, existing)
        == if row.Ok? then Ok(before.value + row.value) else Err(row.error)
  {
    assert rows[..i + 1][..i] == rows[..i];
  }

  /** One step of Pictures. */
  lemma PicturesPrefix(rows: seq<Row>, i: nat, picdir: string, existing: set<string>)
    requires i < |rows|
    ensures Pictures(rows[..i + 1], picdir, existing) == Pictures(rows[..i], picdir, existing)
      + (if PicName(picdir, rows[i].id) in existing then [PicName(picdir, rows[i].id)] else [])
  {
    assert rows[..i + 1][..i] == rows[..i];
  }

  /** The constructor loop's registry after one more row. */
  lemma RegistrationsStep(rows: seq<Row>, i: nat, ids: map<string, nat>)
    requires i < |rows| && Numbered(rows, ids)
    ensures Numbered(rows[..i], ids) && Numbered(rows[..i + 1], ids)
    ensures var reg := BuildRegistry(Registrations(rows[..i], ids));
      BuildRegistry(Registrations(rows[..i + 1], ids))
      == if HasKnownParent(rows[i]) then Register(reg, PairOf(rows[i]), ids[rows[i].id]) else reg
  {
    assert rows[..i + 1][..i] == rows[..i];
    BuildRegistryAppend(Registrations(rows[..i], ids),
                        if HasKnownParent(rows[i]) then [Registration(PairOf(rows[i]), ids[rows[i].id])] else []);
  }

  /** The FamilyTreeMapping object: the table, the picture directory, and what the constructor derives from them. */
  class FamilyTreeMapping {
    const t: seq<Row>
    const picdir: string
    const idMap: map<string, nat>
    const famMap: FamilyMapping
    const famSMap: map<string, seq<nat>>
    ghost const Repr: set<object>

    ghost predicate Valid()
      reads this, Repr
    {
      && this in Repr
      && famMap in Repr && famMap.Repr <= Repr && this !in famMap.Repr
      && famMap.Valid()
      && idMap == IdMap(t)
      && famMap.entries == FamiliesOf(t)
      && famSMap == SpouseMap(famMap.entries)
    }

    /** __init__: numbers the rows, registers every row with a known parent, and builds the spouse map. */
    constructor (t: seq<Row>, picdir: string)
      ensures Valid() && fresh(Repr)
      ensures this.t == t && this.picdir == picdir
    {
      var ids, fm, smap := Derive(t);
      this.t := t;
      this.picdir := picdir;
      idMap := ids;
      famMap := fm;
      famSMap := smap;
      Repr := {this} + fm.Repr;
    }

    /** __getFAMC: the number of the family of the row's parents, None when the row has no known parent. */
    method GetFAMC(row: Row) returns (r: Result<Option<nat>>)
      requires Valid()
      ensures r == Famc(famMap.entries, row)
    {
      if !HasKnownParent(row) {
        return Ok(None);
      }
      var key := PairOf(row);
      match IndexOfKey(famMap.parentToFamily, key)
      case Some(i) =>
        assert famMap.entries[i].parents == key;
        assert Find(famMap.entries, key) == Some(i);
        r := Ok(Some(famMap.parentToFamily[i].family.id));
      case None =>
        assert Find(famMap.entries, key).None?;
        r := Err(KeyError(row.fatherId + "," + row.motherId));
    }

    /** printGedcom: prints the header, the INDI records, the FAM records, the OBJE records and the trailer. */
    method PrintGedcom(first: string, last: string, date: string, time: string, existing: set<string>)
      returns (out: Result<seq<string>>)
      requires Valid()
      ensures out == RenderResult(Gedcom(t, picdir, existing, date, time, first, last))
    {
      var indi, pics := PrintIndividuals(existing);
      if indi.Err? {
        return Err(indi.error);
      }
      var fams := famMap.PrintGedcom(idMap);
      if fams.Err? {
        return Err(fams.error);
      }
      var objes := PrintObjects(pics);
      DocumentText(Header(date, time, first, last), IndiSection(t, idMap, famMap.entries, famSMap, picdir, existing).value,
                   FamRecords(famMap.entries, idMap).value, ObjeRecords(pics));
      out := Ok(RenderAll(Header(date, time, first, last)) + indi.value + fams.value + objes + [Render(Trailer())]);
    }

    /** The body of the row loop of printGedcom: FAMC, FAMS and OBJE of one row, then its INDI record. */
    method PrintRow(ghost before: seq<Row>, row: Row, npics: nat, existing: set<string>) returns (r: Result<seq<string>>)
      requires Valid() && row.id in idMap
      requires npics == |Pictures(before, picdir, existing)|
      ensures r == RenderResult(RowLines(before, row, idMap, famMap.entries, famSMap, picdir, existing))
    {
      var famc := GetFAMC(row);
      if famc.Err? {
        return Err(famc.error);
      }
      var obje := if PicName(picdir, row.id) in existing then Some(npics) else None;
      r := PrintIndividual(row, idMap[row.id], famc.value, FamsOf(famSMap, row.id), obje);
    }

    /** The row loop of printGedcom: the INDI records in row order, and the pictures found on the way. */
    method PrintIndividuals(existing: set<string>) returns (r: Result<seq<string>>, pics: seq<string>)
      requires Valid()
      ensures r == RenderResult(IndiSection(t, idMap, famMap.entries, famSMap, picdir, existing))
      ensures r.Ok? ==> pics == Pictures(t, picdir, existing)
    {
      var text: seq<string> := [];
      pics := [];
      ghost var reg := famMap.entries;
      var i := 0;
      while i < |t|
        invariant 0 <= i <= |t|
        invariant Numbered(t[..i], idMap)
        invariant IndiSection(t[..i], idMap, reg, famSMap, picdir, existing).Ok?
        invariant text == RenderAll(IndiSection(t[..i], idMap, reg, famSMap, picdir, existing).value)
        invariant pics == Pictures(t[..i], picdir, existing)
      {
        var row := t[i];
        PicturesPrefix(t, i, picdir, existing);
        IndiSectionStep(t, i, idMap, reg, famSMap, picdir, existing);
        var lines := PrintRow(t[..i], row, |pics|, existing);
        if lines.Err? {
          IndiSectionErrSticks(t, i + 1, idMap, reg, famSMap, picdir, existing);
          return Err(lines.error), pics;
        }
        RenderAllAppend(IndiSection(t[..i], idMap, reg, famSMap, picdir, existing).value,
                        RowLines(t[..i], row, idMap, reg, famSMap, picdir, existing).value);
        text := text + lines.value;
        var pic := PicName(picdir, row.id);
        if pic in existing {
          pics := pics + [pic];
        }
        i := i + 1;
      }
      assert t[..i] == t;
      r := Ok(text);
    }
  }

  /** The work of __init__: the ID map, the family registry, and the spouse map. */
  method Derive(t: seq<Row>) returns (ids: map<string, nat>, fm: FamilyMapping, smap: map<string, seq<nat>>)
    ensures ids == IdMap(t)
    ensures fresh(fm.Repr) && fm.Valid()
    ensures fm.entries == FamiliesOf(t)
    ensures smap == SpouseMap(fm.entries)
  {
    ids := IdMap(t);
    fm := RegisterRows(t, ids);
    smap := fm.GetSpouseMap();
  }

  /** The loop of __init__: every row with a known parent is added to the family of its parent pair. */
  method RegisterRows(t: seq<Row>, ids: map<string, nat>) returns (fm: FamilyMapping)
    requires Numbered(t, ids)
    ensures fresh(fm.Repr) && fm.Valid()
    ensures fm.entries == BuildRegistry(Registrations(t, ids))
  {
    fm := new FamilyMapping();
    var i := 0;
    while i < |t|
      invariant 0 <= i <= |t|
      invariant fm.Valid() && fresh(fm.Repr)
      invariant Numbered(t[..i], ids)
      invariant fm.entries == BuildRegistry(Registrations(t[..i], ids))
    {
      RegistrationsStep(t, i, ids);
      RegisterRow(fm, t[i], ids[t[i].id]);
      i := i + 1;
    }
    assert t[..i] == t;
  }

  /** One iteration of the loop of __init__: a row with a known parent joins its parents' family. */
  method RegisterRow(fm: FamilyMapping, row: Row, gid: nat)
    requires fm.Valid()
    modifies fm.Repr
    ensures fm.Valid() && fresh(fm.Repr - old(fm.Repr))
    ensures fm.entries == if HasKnownParent(row) then Register(old(fm.entries), PairOf(row), gid) else old(fm.entries)
  {
    if HasKnownParent(row) {
      fm.AddChildren(row.fatherId, row.motherId, gid);
    }
  }

  /** The picture loop of printGedcom: record k for the k-th picture. */
  method PrintObjects(pics: seq<string>) returns (lines: seq<string>)
    ensures lines == RenderAll(ObjeRecords(pics))
  {
    lines := [];
    var k := 0;
    while k < |pics|
      invariant 0 <= k <= |pics|
      invariant lines == RenderAll(ObjeRecords(pics[..k]))
    {
      assert pics[..k + 1][..k] == pics[..k];
      RenderAllAppend(ObjeRecords(pics[..k]), ObjeRecord(k, pics[k]));
      lines := lines + [Render(ObjeHeader(k)),
                        Render(Tagged(1, "FILE", pics[k])),
                        Render(Tagged(2, "FORM", "jpg"))];
      k := k + 1;
    }
    assert pics[..k] == pics;
  }

  /** The rendered parts of the document, concatenated, are the rendering of the whole. */
  lemma DocumentText(header: seq<GedLine>, indi: seq<GedLine>, fams: seq<GedLine>, objes: seq<GedLine>)
    ensures RenderAll(header + indi + fams + objes + [Trailer()])
      == RenderAll(header) + RenderAll(indi) + RenderAll(fams) + RenderAll(objes) + [Render(Trailer())]
  {
    RenderAllAppend(header, indi);
    RenderAllAppend(header + indi, fams);
    RenderAllAppend(header + indi + fams, objes);
    RenderAllAppend(header + indi + fams + objes, [Trailer()]);
  }

  /** Once the records of some first rows fail, the whole INDI section fails with the same error. */
  lemma {:induction false} IndiSectionErrSticks(rows: seq<Row>, i: nat, ids: map<string, nat>, reg: Registry,
                                               smap: map<string, seq<nat>>, picdir: string, existing: set<string>)
    requires i <= |rows| && Numbered(rows, ids) && Numbered(rows[..i], ids)
    requires IndiSection(rows[..i], ids, reg, smap, picdir, existing).Err?
    ensures IndiSection(rows, ids, reg, smap, picdir, existing) == IndiSection(rows[..i], ids, reg, smap, picdir, existing)
    decreases |rows| - i
  {
    if i < |rows| {
      assert rows[..i + 1][..i] == rows[..i];
      IndiSectionErrSticks(rows, i + 1, ids, reg, smap, picdir, existing);
    } else {
      assert rows[..i] == rows;
    }
  }

  /** The body of the row loop of printGedcom: one INDI record. */
  method PrintIndividual(row: Row, gid: nat, famc: Option<nat>, fams: seq<nat>, obje: Option<nat>)
    returns (r: Result<seq<string>>)
    ensures r == RenderResult(IndiLines(row, gid, famc, fams, obje))
  {
    var birth :- BirthLines(row);
    var death :- DeathLines(row);
    var links := PrintLinks(famc, fams, obje);
    RenderAllAppend(IndiHead(row, gid) + birth + death, LinkLines(famc, fams, obje));
    r := Ok(RenderAll(IndiHead(row, gid) + birth + death) + links);
  }

  /** The end of an INDI record: FAMC, then the FAMS lines printed one by one, then OBJE. */
  method PrintLinks(famc: Option<nat>, fams: seq<nat>, obje: Option<nat>) returns (lines: seq<string>)
    ensures lines == RenderAll(LinkLines(famc, fams, obje))
  {
    ghost var first := if famc.Some? then [FamcLine(famc.value)] else [];
    lines := [];
    if famc.Some? {
      lines := [Render(FamcLine(famc.value))];
    }
    var j := 0;
    while j < |fams|
      invariant 0 <= j <= |fams|
      invariant lines == RenderAll(first + FamsLines(fams[..j]))
    {
      assert FamsLines(fams[..j + 1]) == FamsLines(fams[..j]) + [FamsLine(fams[j])];
      RenderAllAppend(first + FamsLines(fams[..j]), [FamsLine(fams[j])]);
      lines := lines + [Render(FamsLine(fams[j]))];
      j := j + 1;
    }
    assert fams[..j] == fams;
    if obje.Some? {
      RenderAllAppend(first + FamsLines(fams), [ObjeLine(obje.value)]);
      lines := lines + [Render(ObjeLine(obje.value))];
    }
  }
}

=== FILE: formatters.dfy ===
/**
 * The person row and the pure formatting helpers of the converter: date conversion, the two
 * name helpers, the place printer and the birth and death event blocks.
 */
module Formatters {
  import opened Wrappers
  import opened Text
  import opened GedcomLines

  /** A spreadsheet cell as the table reader delivers it: a whole number, or text ("" when blank). */
  datatype Cell = Int(n: int) | Str(s: string)

  /** Python truthiness of a cell: 0 and "" are false, everything else is true. */
  predicate Truthy(c: Cell) {
    match c
    case Int(n) => n != 0
    case Str(s) => s != ""
  }

  /** What '{}'.format(c) prints for a cell. */
  function CellText(c: Cell): string {
    match c
    case Int(n) => IntText(n)
    case Str(s) => s
  }

  /** One person: the columns of one spreadsheet row. Text columns are "" when blank. */
  datatype Row = Row(
    id: string,
    fatherId: string,
    motherId: string,
    title: string,
    lastName: string,
    firstName: string,
    midname: string,
    nickname: string,
    gender: Cell,
    email: string,
    webpage: string,
    dateOfBirth: Cell,
    placeOfBirth: string,
    dateOfDeath: Cell,
    placeOfDeath: string,
    isLiving: Cell)

  /** hasKnownParent: the row names a father or a mother. */
  predicate HasKnownParent(row: Row)
    ensures HasKnownParent(row) <==> Truthy(Str(row.fatherId)) || Truthy(Str(row.motherId))
  {
    row.fatherId != "" || row.motherId != ""
  }

  /** calendar.month_name in the English locale: index 0 is the empty string. */
  const MonthNames: seq<string> := ["", "January", "February", "March", "April", "May", "June",
    "July", "August", "September", "October", "November", "December"]

  /** calendar.month_name[m][:3].upper() for every index the list accepts; a negative m counts from the end. */
  function MonthAbbrev(m: int): string
    requires -13 <= m < 13
  {
    var name := MonthNames[if m < 0 then m + 13 else m];
    UpperAscii(name[..if |name| < 3 then |name| else 3])
  }

  const MonthAbbrevs: seq<string> := ["JAN", "FEB", "MAR", "APR", "MAY", "JUN",
    "JUL", "AUG", "SEP", "OCT", "NOV", "DEC"]

  /** Month m, 1 to 12, becomes the three-letter upper-case name GEDCOM dates use; 0 becomes "". */
  lemma MonthAbbrevTable(m: int)
    requires 0 <= m <= 12
    ensures MonthAbbrev(m) == if m == 0 then "" else MonthAbbrevs[m - 1]
  {
    var name := MonthNames[m];
    var p := name[..if |name| < 3 then |name| else 3];
    var u := UpperAscii(p);
    if m > 0 {
      assert |p| == 3 && |u| == 3;
      assert u[0] == MonthAbbrevs[m - 1][0];
      assert u[1] == MonthAbbrevs[m - 1][1];
      assert u[2] == MonthAbbrevs[m - 1][2];
    }
  }

  /**
   * convertDate: an integer cell is returned as it is; text is cut at '/'; a single piece is read
   * as an integer; otherwise the second-to-last piece, read as a month number, is replaced by its
   * abbreviation and the pieces are joined with single blanks and stripped.
   */
  function ConvertDate(d: Cell): (r: Result<Cell>)
    ensures d.Int? ==> r == Ok(d)
    ensures d.Str? && '/' !in d.s ==>
      r == if ParseInt(d.s).Some? then Ok(Int(ParseInt(d.s).value)) else Err(ValueError(d.s))
    ensures d.Str? && '/' in d.s ==>
      var parts := Split(d.s, '/');
      var month := ParseInt(parts[|parts| - 2]);
      (r.Ok? <==> month.Some? && -13 <= month.value < 13)
    ensures d.Str? && '/' in d.s && r.Ok? ==> r.value.Str? && '/' !in r.value.s
  {
    match d
    case Int(n) => Ok(Int(n))
    case Str(s) =>
      var parts := Split(s, '/');
      if |parts| == 1 then
        match ParseInt(parts[0])
        case Some(n) => Ok(Int(n))
        case None => Err(ValueError(parts[0]))
      else
        var k := |parts| - 2;
        match ParseInt(parts[k])
        case None => Err(ValueError(parts[k]))
        case Some(m) =>
          if -13 <= m < 13 then
            var pieces := parts[k := MonthAbbrev(m)];
            MonthAbbrevHasNoSlash(m);
            JoinHasNo(pieces, " ", '/');
            StripHasNo(Join(pieces, " "), '/');
            Ok(Str(Strip(Join(pieces, " "))))
          else Err(IndexError("month number"))
  }

  /** No month abbreviation contains '/', so the converted date has none. */
  lemma MonthAbbrevHasNoSlash(m: int)
    requires -13 <= m < 13
    ensures '/' !in MonthAbbrev(m)
  {
    var k := if m < 0 then m + 13 else m;
    var name := MonthNames[k];
    assert '/' !in name by {
      if k <= 6 {
        if k == 0 {} else if k == 1 {} else if k == 2 {} else if k == 3 {} else if k == 4 {} else if k == 5 {} else {}
      } else {
        if k == 7 {} else if k == 8 {} else if k == 9 {} else if k == 10 {} else if k == 11 {} else {}
      }
    }
    var p := name[..if |name| < 3 then |name| else 3];
    assert forall i :: 0 <= i < |p| ==> p[i] != '/';
  }

  /** The value of a "2 DATE" line: the converted date as '{}'.format prints it. */
  function DateText(d: Cell): Result<string> {
    var c :- ConvertDate(d);
    Ok(CellText(c))
  }

  /** A year-only text (no '/') is read as the integer it spells. */
  lemma DateOfYear(s: string, n: int)
    requires '/' !in s && ParseInt(s) == Some(n)
    ensures ConvertDate(Str(s)) == Ok(Int(n))
  {
    assert Split(s, '/') == [s];
  }

  /** A year given as a number and the same year given as text print the same DATE value. */
  lemma YearNumberOrText(n: int)
    ensures DateText(Str(IntText(n))) == DateText(Int(n)) == Ok(IntText(n))
  {
    IntTextHasNo(n, '/');
    ParseIntText(n);
    DateOfYear(IntText(n), n);
  }

  /** The general case of convertDate: the month piece replaced, the pieces joined and stripped. */
  lemma DateOfPieces(s: string, m: int)
    requires |Split(s, '/')| >= 2
    requires ParseInt(Split(s, '/')[|Split(s, '/')| - 2]) == Some(m) && -13 <= m < 13
    ensures var parts := Split(s, '/');
      ConvertDate(Str(s)) == Ok(Str(Strip(Join(parts[|parts| - 2 := MonthAbbrev(m)], " "))))
  {
  }

  /** Text with no white space at either end is left alone by strip(). */
  lemma StripKeeps(s: string)
    requires s != [] && !IsSpace(s[0]) && !IsSpace(s[|s| - 1])
    ensures Strip(s) == s
  {
    assert TrimStart(s) == s;
  }

  /** Three pieces without '/' joined by '/' are cut back into exactly those pieces. */
  lemma SplitThree(a: string, b: string, c: string)
    requires '/' !in a && '/' !in b && '/' !in c
    ensures Split(a + "/" + b + "/" + c, '/') == [a, b, c]
  {
    var rest := b + "/" + c;
    SplitAt(b, '/', c);
    assert Split(rest, '/') == [b, c];
    assert a + "/" + b + "/" + c == a + ['/'] + rest;
    SplitAt(a, '/', rest);
  }

  /** Two pieces without '/' joined by '/' are cut back into exactly those pieces. */
  lemma SplitTwo(a: string, b: string)
    requires '/' !in a && '/' !in b
    ensures Split(a + "/" + b, '/') == [a, b]
  {
    SplitAt(a, '/', b);
    assert Split(b, '/') == [b];
  }

  /** Three words joined with blanks, with no white space at either end, come back unchanged from strip(). */
  lemma JoinThree(a: string, b: string, c: string)
    requires a != "" && !IsSpace(a[0]) && c != "" && !IsSpace(c[|c| - 1])
    ensures Strip(Join([a, b, c], " ")) == a + " " + b + " " + c
  {
    assert [a, b, c][1..] == [b, c];
    assert Join([b, c], " ") == b + " " + c by { assert [b, c][1..] == [c]; }
    var joined := a + " " + b + " " + c;
    assert joined[0] == a[0] && joined[|joined| - 1] == c[|c| - 1];
    StripKeeps(joined);
  }

  /** Two words joined with a blank, with no white space at either end, come back unchanged from strip(). */
  lemma JoinTwo(a: string, b: string)
    requires a != "" && !IsSpace(a[0]) && b != "" && !IsSpace(b[|b| - 1])
    ensures Strip(Join([a, b], " ")) == a + " " + b
  {
    assert [a, b][1..] == [b];
    var joined := a + " " + b;
    assert joined[0] == a[0] && joined[|joined| - 1] == b[|b| - 1];
    StripKeeps(joined);
  }

  /** Every abbreviation of a month 1 to 12 starts with a capital letter. */
  lemma AbbrevStartsWithLetter(m: int)
    requires 1 <= m <= 12
    ensures |MonthAbbrevs[m - 1]| == 3 && 'A' <= MonthAbbrevs[m - 1][0] <= 'Z'
  {
    if m <= 6 {
      if m == 1 {} else if m == 2 {} else if m == 3 {} else if m == 4 {} else if m == 5 {} else {}
    } else {
      if m == 7 {} else if m == 8 {} else if m == 9 {} else if m == 10 {} else if m == 11 {} else {}
    }
  }

  /** "dd/mm/yyyy" becomes "dd MON yyyy" for a month number 1 to 12. */
  lemma DateOfDayMonthYear(dd: string, mm: string, yyyy: string, m: int)
    requires '/' !in dd && '/' !in mm && '/' !in yyyy
    requires ParseInt(mm) == Some(m) && 1 <= m <= 12
    requires dd != "" && !IsSpace(dd[0]) && yyyy != "" && !IsSpace(yyyy[|yyyy| - 1])
    ensures ConvertDate(Str(dd + "/" + mm + "/" + yyyy)) == Ok(Str(dd + " " + MonthAbbrevs[m - 1] + " " + yyyy))
  {
    var s := dd + "/" + mm + "/" + yyyy;
    var mon := MonthAbbrevs[m - 1];
    assert ConvertDate(Str(s)) == Ok(Str(Strip(Join([dd, mon, yyyy], " ")))) by {
      SplitThree(dd, mm, yyyy);
      DateOfPieces(s, m);
      MonthAbbrevTable(m);
      assert [dd, mm, yyyy][1 := mon] == [dd, mon, yyyy];
    }
    JoinThree(dd, mon, yyyy);
  }

  /** A single piece that is no integer raises ValueError. */
  lemma YearNotNumber(s: string)
    requires '/' !in s && ParseInt(s).None?
    ensures ConvertDate(Str(s)) == Err(ValueError(s))
  {
    assert Split(s, '/') == [s];
  }

  /** "dd/mm/yyyy" raises when mm is no integer (ValueError) or no index of month_name (IndexError). */
  lemma DateBadMonth(dd: string, mm: string, yyyy: string)
    requires '/' !in dd && '/' !in mm && '/' !in yyyy
    requires ParseInt(mm).None? || ParseInt(mm).value >= 13 || ParseInt(mm).value < -13
    ensures ConvertDate(Str(dd + "/" + mm + "/" + yyyy))
      == if ParseInt(mm).None? then Err(ValueError(mm)) else Err(IndexError("month number"))
  {
    SplitThree(dd, mm, yyyy);
  }

  /** "mm/yyyy" becomes "MON yyyy" for a month number 1 to 12. */
  lemma DateOfMonthYear(mm: string, yyyy: string, m: int)
    requires '/' !in mm && '/' !in yyyy
    requires ParseInt(mm) == Some(m) && 1 <= m <= 12
    requires yyyy != "" && !IsSpace(yyyy[|yyyy| - 1])
    ensures ConvertDate(Str(mm + "/" + yyyy)) == Ok(Str(MonthAbbrevs[m - 1] + " " + yyyy))
  {
    var s := mm + "/" + yyyy;
    var mon := MonthAbbrevs[m - 1];
    assert ConvertDate(Str(s)) == Ok(Str(Strip(Join([mon, yyyy], " ")))) by {
      SplitTwo(mm, yyyy);
      DateOfPieces(s, m);
      MonthAbbrevTable(m);
      assert [mm, yyyy][0 := mon] == [mon, yyyy];
    }
    assert Strip(Join([mon, yyyy], " ")) == mon + " " + yyyy by {
      AbbrevStartsWithLetter(m);
      JoinTwo(mon, yyyy);
    }
  }

  /** int("04") == 4 */
  lemma ParseMonthApril()
    ensures ParseInt("04") == Some(4)
  {
    assert TrimStart("04") == "04";
    assert "04"[..1] == "0";
    assert "0"[..0] == "";
  }

  lemma ExampleTexts()
    ensures "08/04/1931" == "08" + "/" + "04" + "/" + "1931"
    ensures "08" + " " + "APR" + " " + "1931" == "08 APR 1931"
  {
  }

  lemma ExampleConverted()
    ensures ConvertDate(Str("08" + "/" + "04" + "/" + "1931")) == Ok(Str("08" + " " + "APR" + " " + "1931"))
  {
    ParseMonthApril();
    assert !IsSpace("08"[0]) && !IsSpace("1931"[3]);
    assert '/' !in "08" && '/' !in "04" && '/' !in "1931";
    DateOfDayMonthYear("08", "04", "1931", 4);
    AprilAbbrev();
  }

  /** The fourth abbreviation is APR. */
  lemma AprilAbbrev()
    ensures MonthAbbrevs[3] == "APR"
  {
  }

  /** The example of the documentation: 08/04/1931 gives 08 APR 1931. */
  lemma DateExample()
    ensures DateText(Str("08/04/1931")) == Ok("08 APR 1931")
  {
    ExampleConverted();
    ExampleTexts();
  }

  /** getSurNameWithPrefix: the surname ends with the last name and starts with the title and a blank. */
  function SurnameWithPrefix(row: Row): (r: string)
    ensures |r| >= |row.lastName| && r[|r| - |row.lastName|..] == row.lastName
    ensures row.title == "" ==> r == row.lastName
    ensures row.title != "" ==> |r| == |row.title| + 1 + |row.lastName| && r[..|row.title| + 1] == row.title + " "
  {
    if row.title != "" then row.title + " " + row.lastName else row.lastName
  }

  /** getFirstNameWithMidName: the given name ends with the first name and starts with the middle name and a blank. */
  function GivenNameWithMidname(row: Row): (r: string)
    ensures |r| >= |row.firstName| && r[|r| - |row.firstName|..] == row.firstName
    ensures row.midname == "" ==> r == row.firstName
    ensures row.midname != "" ==> |r| == |row.midname| + 1 + |row.firstName| && r[..|row.midname| + 1] == row.midname + " "
  {
    if row.midname != "" then row.midname + " " + row.firstName else row.firstName
  }

  /**
   * printPlace: nothing for an empty place; otherwise the place must hold at least two tokens,
   * the first the country and the second the city, each losing its first and last character.
   */
  function PlaceLines(place: string): (r: Result<seq<GedLine>>)
    ensures place == "" ==> r == Ok([])
    ensures r.Err? <==> place != "" && |Words(place)| < 2
    ensures r.Ok? && place != "" ==> |r.value| == 4 && r.value[0].value == r.value[2].value
  {
    if place == "" then Ok([])
    else
      var address := Words(place);
      if |address| < 2 then Err(IndexError("place with fewer than two tokens"))
      else
        var city := Inner(address[1]);
        Ok([Tagged(2, "PLAC", city), Bare(2, "ADDR"), Tagged(3, "CITY", city), Tagged(3, "CTRY", Inner(address[0]))])
  }

  /** "[country] [city]" gives the city on the PLAC and CITY lines and the country on the CTRY line. */
  lemma BracketedPlace(country: string, city: string)
    requires NoSpace(country) && NoSpace(city)
    ensures PlaceLines("[" + country + "] [" + city + "]")
         == Ok([Tagged(2, "PLAC", city), Bare(2, "ADDR"), Tagged(3, "CITY", city), Tagged(3, "CTRY", country)])
  {
    var a := "[" + country + "]";
    var b := "[" + city + "]";
    assert NoSpace(a) && NoSpace(b);
    assert "[" + country + "] [" + city + "]" == a + " " + b;
    WordsOfTwo(a, b);
    assert Inner(a) == country;
    assert Inner(b) == city;
  }

  /**
   * The token rule of printPlace: the first white-space separated token, without its first and
   * last character, is the country, the second one likewise the city, and any later token is ignored.
   */
  lemma PlaceOfTokens(country: string, city: string, rest: string)
    requires country != [] && NoSpace(country) && city != [] && NoSpace(city)
    requires rest == [] || IsSpace(rest[0])
    ensures PlaceLines(country + " " + city + rest)
         == Ok([Tagged(2, "PLAC", Inner(city)), Bare(2, "ADDR"), Tagged(3, "CITY", Inner(city)), Tagged(3, "CTRY", Inner(country))])
  {
    var tail := " " + city + rest;
    assert country + " " + city + rest == [] + country + tail;
    WordsStep([], country, tail);
    WordsStep(" ", city, rest);
  }

  /**
   * A bracketed country holding a blank is cut at the blank: "[a b] [city]" prints a without its
   * last character as the country and b without its first character as the city, so
   * "[United Kingdom] [London]" prints country "Unite" and city "ingdom".
   */
  lemma SpacedCountry(a: string, b: string, city: string)
    requires a != [] && NoSpace(a) && b != [] && NoSpace(b) && NoSpace(city)
    ensures PlaceLines("[" + a + " " + b + "] [" + city + "]")
         == Ok([Tagged(2, "PLAC", b[1..]), Bare(2, "ADDR"), Tagged(3, "CITY", b[1..]), Tagged(3, "CTRY", a[..|a| - 1])])
  {
    var country := "[" + a;
    var town := b + "]";
    var rest := " [" + city + "]";
    assert NoSpace(country) && NoSpace(town);
    assert "[" + a + " " + b + "] [" + city + "]" == country + " " + town + rest;
    PlaceOfTokens(country, town, rest);
    InnerOpened(a);
    InnerClosed(b);
  }

  /** "[" + a loses the bracket and the last character of a. */
  lemma InnerOpened(a: string)
    requires a != []
    ensures Inner("[" + a) == a[..|a| - 1]
  {
    assert "[" + a == "[" + a[..|a| - 1] + [a[|a| - 1]];
    InnerOf("[", a[..|a| - 1], [a[|a| - 1]]);
  }

  /** b + "]" loses the first character of b and the bracket. */
  lemma InnerClosed(b: string)
    requires b != []
    ensures Inner(b + "]") == b[1..]
  {
    assert b + "]" == [b[0]] + b[1..] + "]";
    InnerOf([b[0]], b[1..], "]");
  }

  /** Dropping the first and the last character of a + b + c leaves b when a and c are one character each. */
  lemma InnerOf(a: string, b: string, c: string)
    requires |a| == 1 && |c| == 1
    ensures Inner(a + b + c) == b
  {
    var s := a + b + c;
    assert forall i :: 0 <= i < |b| ==> s[i + 1] == b[i];
  }

  /** The example of the documentation: "[HU] [Budapest]". */
  lemma PlaceExample()
    ensures PlaceLines("[HU] [Budapest]")
         == Ok([Tagged(2, "PLAC", "Budapest"), Bare(2, "ADDR"), Tagged(3, "CITY", "Budapest"), Tagged(3, "CTRY", "HU")])
  {
    assert "[HU] [Budapest]" == "[" + "HU" + "] [" + "Budapest" + "]";
    BracketedPlace("HU", "Budapest");
  }

  /** A BIRT or DEAT block: the event line, its DATE line, then the place lines. */
  function EventLines(tag: string, date: Cell, place: string): (r: Result<seq<GedLine>>)
    ensures r.Ok? <==> ConvertDate(date).Ok? && PlaceLines(place).Ok?
    ensures r.Err? ==> r.error == if ConvertDate(date).Err? then ConvertDate(date).error else PlaceLines(place).error
    ensures r.Ok? ==>
      |r.value| >= 2 && r.value[0] == Bare(1, tag) && r.value[1] == Tagged(2, "DATE", DateText(date).value)
      && r.value[2..] == PlaceLines(place).value
  {
    var text :- DateText(date);
    var places :- PlaceLines(place);
    Ok([Bare(1, tag), Tagged(2, "DATE", text)] + places)
  }

  /** An event without a place is the event line and the DATE line holding the converted date. */
  lemma EventWithoutPlace(tag: string, date: Cell, text: string)
    requires DateText(date) == Ok(text)
    ensures EventLines(tag, date, "") == Ok([Bare(1, tag), Tagged(2, "DATE", text)])
  {
    var head: seq<GedLine> := [Bare(1, tag), Tagged(2, "DATE", text)];
    assert PlaceLines("") == Ok([]);
    assert head + [] == head;
  }

  /** The example of the documentation as a birth block: "08/04/1931" with no place gives "2 DATE 08 APR 1931". */
  lemma EventExample()
    ensures EventLines("BIRT", Str("08/04/1931"), "") == Ok([Bare(1, "BIRT"), Tagged(2, "DATE", "08 APR 1931")])
  {
    DateExample();
    EventWithoutPlace("BIRT", Str("08/04/1931"), "08 APR 1931");
  }

  /** The birth block, present when the date of birth is. */
  function BirthLines(row: Row): (r: Result<seq<GedLine>>)
    ensures r.Err? ==> Truthy(row.dateOfBirth)
    ensures Truthy(row.dateOfBirth) ==> r == EventLines("BIRT", row.dateOfBirth, row.placeOfBirth)
    ensures r.Ok? ==> (r.value == [] <==> !Truthy(row.dateOfBirth))
    ensures r.Ok? && r.value != [] ==> r.value[0] == Bare(1, "BIRT")
  {
    if Truthy(row.dateOfBirth) then EventLines("BIRT", row.dateOfBirth, row.placeOfBirth) else Ok([])
  }

  /** The death block when a date of death is given; else "1 DEAT Y" when 'is living?' is 0; else nothing. */
  function DeathLines(row: Row): (r: Result<seq<GedLine>>)
    ensures r.Err? ==> Truthy(row.dateOfDeath)
    ensures Truthy(row.dateOfDeath) ==> r == EventLines("DEAT", row.dateOfDeath, row.placeOfDeath)
    ensures r.Ok? ==> (r.value == [] <==> !Truthy(row.dateOfDeath) && row.isLiving != Int(0))
    ensures r.Ok? && r.value != [] ==>
      r.value[0] == (if Truthy(row.dateOfDeath) then Bare(1, "DEAT") else Tagged(1, "DEAT", "Y"))
  {
    if Truthy(row.dateOfDeath) then EventLines("DEAT", row.dateOfDeath, row.placeOfDeath)
    else if row.isLiving == Int(0) then Ok([Tagged(1, "DEAT", "Y")])
    else Ok([])
  }
}

=== FILE: gedcom_lines.dfy ===
/**
 * One GEDCOM line record: a level number, an optional cross-reference identifier, a tag and an
 * optional value, and its exact text as the converter prints it.
 */
module GedcomLines {
  import opened Wrappers
  import opened Text

  datatype GedLine = GedLine(level: nat, xref: Option<string>, tag: string, value: Option<string>)

  /** "<level> [@<xref>@ ]<tag>[ <value>]": a present but empty value still prints its blank. */
  function Render(l: GedLine): string {
    NatText(l.level) + " "
    + (match l.xref case Some(x) => "@" + x + "@ " case None => "")
    + l.tag
    + (match l.value case Some(v) => " " + v case None => "")
  }

  /** The printed lines, one string per record, in order. */
  function RenderAll(ls: seq<GedLine>): (out: seq<string>)
    ensures |out| == |ls| && forall i :: 0 <= i < |ls| ==> out[i] == Render(ls[i])
  {
    seq(|ls|, i requires 0 <= i < |ls| => Render(ls[i]))
  }

  function RenderResult(r: Result<seq<GedLine>>): Result<seq<string>> {
    match r
    case Ok(ls) => Ok(RenderAll(ls))
    case Err(e) => Err(e)
  }

  lemma RenderAllAppend(a: seq<GedLine>, b: seq<GedLine>)
    ensures RenderAll(a + b) == RenderAll(a) + RenderAll(b)
  {
  }

  /** A line with no cross-reference and a value: "<level> <tag> <value>". */
  function Tagged(level: nat, tag: string, value: string): GedLine {
    GedLine(level, None, tag, Some(value))
  }

  /** A line with neither cross-reference nor value: "<level> <tag>". */
  function Bare(level: nat, tag: string): GedLine {
    GedLine(level, None, tag, None)
  }

  /** "@<xref>@", the form in which one record points at another. */
  function Pointer(xref: string): string {
    "@" + xref + "@"
  }

  /** The lines of ls whose tag is tag, in order. */
  function WithTag(ls: seq<GedLine>, tag: string): (r: seq<GedLine>)
    ensures forall i :: 0 <= i < |r| ==> r[i].tag == tag && r[i] in ls
  {
    if |ls| == 0 then []
    else WithTag(ls[..|ls| - 1], tag) + (if ls[|ls| - 1].tag == tag then [ls[|ls| - 1]] else [])
  }

  lemma {:induction false} WithTagAppend(a: seq<GedLine>, b: seq<GedLine>, tag: string)
    ensures WithTag(a + b, tag) == WithTag(a, tag) + WithTag(b, tag)
    decreases |b|
  {
    if |b| > 0 {
      var b' := b[..|b| - 1];
      assert (a + b)[..|a + b| - 1] == a + b';
      WithTagAppend(a, b', tag);
    } else {
      assert a + b == a;
    }
  }

  /** No line of ls has the tag. */
  predicate NoTag(ls: seq<GedLine>, tag: string) {
    forall i :: 0 <= i < |ls| ==> ls[i].tag != tag
  }

  /** A list none of whose lines has the tag keeps no line. */
  lemma {:induction false} WithTagNone(ls: seq<GedLine>, tag: string)
    requires NoTag(ls, tag)
    ensures WithTag(ls, tag) == []
  {
    if |ls| > 0 {
      WithTagNone(ls[..|ls| - 1], tag);
    }
  }

  /** A list all of whose lines have the tag keeps every line. */
  lemma {:induction false} WithTagAll(ls: seq<GedLine>, tag: string)
    requires forall i :: 0 <= i < |ls| ==> ls[i].tag == tag
    ensures WithTag(ls, tag) == ls
  {
    if |ls| > 0 {
      WithTagAll(ls[..|ls| - 1], tag);
      assert ls[..|ls| - 1] + [ls[|ls| - 1]] == ls;
    }
  }

  /** Selecting by tag distributes over four consecutive parts. */
  lemma WithTagOfFour(a: seq<GedLine>, b: seq<GedLine>, c: seq<GedLine>, d: seq<GedLine>, tag: string)
    ensures WithTag(a + b + c + d, tag) == WithTag(a, tag) + WithTag(b, tag) + WithTag(c, tag) + WithTag(d, tag)
  {
    WithTagAppend(a, b, tag);
    WithTagAppend(a + b, c, tag);
    WithTagAppend(a + b + c, d, tag);
  }

  /** The lines with a tag of three blocks, when the first and the last have none. */
  lemma WithTagOfMiddle(a: seq<GedLine>, b: seq<GedLine>, c: seq<GedLine>, tag: string)
    requires NoTag(a, tag) && NoTag(c, tag)
    ensures WithTag(a + b + c, tag) == WithTag(b, tag)
  {
    WithTagNone(a, tag);
    WithTagNone(c, tag);
    WithTagAppend(a, b, tag);
    WithTagAppend(a + b, c, tag);
  }

  /** The level-0 lines of ls, in order: the first line of every record. */
  function Records(ls: seq<GedLine>): (r: seq<GedLine>)
    ensures forall i :: 0 <= i < |r| ==> r[i].level == 0 && r[i] in ls
  {
    if |ls| == 0 then []
    else Records(ls[..|ls| - 1]) + (if ls[|ls| - 1].level == 0 then [ls[|ls| - 1]] else [])
  }

  lemma {:induction false} RecordsAppend(a: seq<GedLine>, b: seq<GedLine>)
    ensures Records(a + b) == Records(a) + Records(b)
    decreases |b|
  {
    if |b| > 0 {
      var b' := b[..|b| - 1];
      assert (a + b)[..|a + b| - 1] == a + b';
      RecordsAppend(a, b');
    } else {
      assert a + b == a;
    }
  }

  /** Lines that are all nested (level 1 or deeper) start no record. */
  lemma {:induction false} NestedNoRecords(ls: seq<GedLine>)
    requires forall i :: 0 <= i < |ls| ==> ls[i].level > 0
    ensures Records(ls) == []
  {
    if |ls| > 0 {
      NestedNoRecords(ls[..|ls| - 1]);
    }
  }

  /** A record line followed by nested lines is one record. */
  lemma OneRecord(first: GedLine, rest: seq<GedLine>)
    requires first.level == 0 && forall i :: 0 <= i < |rest| ==> rest[i].level > 0
    ensures Records([first] + rest) == [first]
  {
    NestedNoRecords(rest);
    RecordsAppend([first], rest);
    assert Records([first]) == [first] by {
      assert [first][..0] == [];
    }
  }
}

=== FILE: registry.dfy ===
/**
 * The family registry as values: what FamilyMapping holds after a sequence of addChildren
 * calls, the spouse map derived from it, and the FAM records it prints. The classes in
 * families.dfy are proved to keep their state equal to these values.
 */
module Registry {
  import opened Wrappers
  import opened Text
  import opened GedcomLines

  /** The key of a family: the father's and the mother's source ID, "" when unknown. */
  datatype ParentPair = ParentPair(father: string, mother: string)

  /** One family: its key, its number and the synthetic IDs of its children. */
  datatype FamilyEntry = FamilyEntry(parents: ParentPair, id: nat, children: seq<nat>)

  /** The families in discovery order (the insertion order of the dictionary). */
  type Registry = seq<FamilyEntry>

  /** One call of addChildren: the parent pair and the child's synthetic ID. */
  datatype Registration = Registration(parents: ParentPair, child: nat)

  /** Numbers 1..n in discovery order, one family per key, and no family without a child. */
  ghost predicate WellFormed(reg: Registry) {
    && (forall i :: 0 <= i < |reg| ==> reg[i].id == i + 1 && reg[i].children != [])
    && (forall i, j :: 0 <= i < j < |reg| ==> reg[i].parents != reg[j].parents)
  }

  /** The keys of the registry in discovery order. */
  function Keys(reg: Registry): (ks: seq<ParentPair>)
    ensures |ks| == |reg| && forall i :: 0 <= i < |reg| ==> ks[i] == reg[i].parents
  {
    seq(|reg|, i requires 0 <= i < |reg| => reg[i].parents)
  }

  /** The dictionary lookup: the position of the family keyed by key, if any. */
  function Find(reg: Registry, key: ParentPair): (r: Option<nat>)
    ensures r.Some? ==> r.value < |reg| && reg[r.value].parents == key
    ensures r.None? ==> forall i :: 0 <= i < |reg| ==> reg[i].parents != key
  {
    if |reg| == 0 then None
    else if reg[0].parents == key then Some(0)
    else match Find(reg[1..], key)
      case Some(i) => Some(i + 1)
      case None => None
  }

  /**
   * FamilyMapping.addChildren: a known pair gets the child appended to its own family and
   * nothing else changes; a new pair gets a new family numbered count + 1 with just that child.
   */
  function Register(reg: Registry, key: ParentPair, child: nat): (r: Registry)
    requires WellFormed(reg)
    ensures WellFormed(r)
    ensures Find(reg, key).None? ==> r == reg + [FamilyEntry(key, |reg| + 1, [child])]
    ensures Find(reg, key).Some? ==> |r| == |reg|
    ensures Find(reg, key).Some? ==> forall i :: 0 <= i < |reg| ==>
      r[i] == if reg[i].parents == key then reg[i].(children := reg[i].children + [child]) else reg[i]
  {
    match Find(reg, key)
    case Some(i) => reg[i := reg[i].(children := reg[i].children + [child])]
    case None => reg + [FamilyEntry(key, |reg| + 1, [child])]
  }

  /** The registry after the given addChildren calls, made in order on an empty one. */
  function BuildRegistry(regs: seq<Registration>): (r: Registry)
    ensures WellFormed(r)
  {
    if |regs| == 0 then []
    else
      var last := regs[|regs| - 1];
      Register(BuildRegistry(regs[..|regs| - 1]), last.parents, last.child)
  }

  /** Zero or one more addChildren call on the registry built so far. */
  lemma BuildRegistryAppend(regs: seq<Registration>, more: seq<Registration>)
    requires |more| <= 1
    ensures BuildRegistry(regs + more)
      == if more == [] then BuildRegistry(regs) else Register(BuildRegistry(regs), more[0].parents, more[0].child)
  {
    if more == [] {
      assert regs + more == regs;
    } else {
      assert (regs + more)[..|regs|] == regs;
    }
  }

  /** The parent pairs of the calls, in call order, collected one call at a time as the fold does. */
  function Pairs(regs: seq<Registration>): (ps: seq<ParentPair>)
    ensures |ps| == |regs| && forall i :: 0 <= i < |regs| ==> ps[i] == regs[i].parents
  {
    if regs == [] then [] else Pairs(regs[..|regs| - 1]) + [regs[|regs| - 1].parents]
  }

  /** The distinct elements of s in the order of their first occurrence. */
  function Dedup<T(==)>(s: seq<T>): seq<T> {
    if |s| == 0 then []
    else
      var d := Dedup(s[..|s| - 1]);
      if s[|s| - 1] in d then d else d + [s[|s| - 1]]
  }

  lemma {:induction false} DedupMembers<T>(s: seq<T>)
    ensures forall x :: x in Dedup(s) <==> x in s
    ensures forall i, j :: 0 <= i < j < |Dedup(s)| ==> Dedup(s)[i] != Dedup(s)[j]
  {
    if |s| > 0 {
      var s' := s[..|s| - 1];
      DedupMembers(s');
      assert s == s' + [s[|s| - 1]];
    }
  }

  /** The children, in call order, of the calls with the given pair. */
  function ChildrenOf(regs: seq<Registration>, key: ParentPair): seq<nat> {
    if |regs| == 0 then []
    else
      var last := regs[|regs| - 1];
      ChildrenOf(regs[..|regs| - 1], key) + (if last.parents == key then [last.child] else [])
  }

  /** Families are numbered in order of first discovery: the keys are the distinct pairs, first-seen first. */
  lemma {:induction false} BuildKeys(regs: seq<Registration>)
    ensures Keys(BuildRegistry(regs)) == Dedup(Pairs(regs))
  {
    if |regs| > 0 {
      var regs' := regs[..|regs| - 1];
      var last := regs[|regs| - 1];
      BuildKeys(regs');
      var b' := BuildRegistry(regs');
      assert Pairs(regs)[..|regs| - 1] == Pairs(regs');
      DedupMembers(Pairs(regs'));
      match Find(b', last.parents)
      case Some(i) =>
        assert last.parents in Keys(b');
      case None =>
        assert last.parents !in Keys(b');
    }
  }

  /** Each family's child list is exactly the children registered under its key, in call order. */
  /** A child is in the list of a key exactly when some call registered it under that key. */
  lemma {:induction false} ChildrenOfMembers(regs: seq<Registration>, key: ParentPair, x: nat)
    ensures x in ChildrenOf(regs, key) <==> Registration(key, x) in regs
  {
    if |regs| > 0 {
      var regs' := regs[..|regs| - 1];
      ChildrenOfMembers(regs', key, x);
      assert regs == regs' + [regs[|regs| - 1]];
    }
  }

  lemma {:induction false} BuildChildren(regs: seq<Registration>)
    ensures var r := BuildRegistry(regs);
      forall i :: 0 <= i < |r| ==> r[i].children == ChildrenOf(regs, r[i].parents)
  {
    if |regs| > 0 {
      var regs' := regs[..|regs| - 1];
      var last := regs[|regs| - 1];
      BuildChildren(regs');
      var b' := BuildRegistry(regs');
      var r := BuildRegistry(regs);
      if Find(b', last.parents).None? {
        BuildKeys(regs');
        DedupMembers(Pairs(regs'));
        assert last.parents !in Keys(b');
        ChildrenOfAbsent(regs', last.parents);
      }
    }
  }

  /** A pair that no call carries has no children. */
  lemma {:induction false} ChildrenOfAbsent(regs: seq<Registration>, key: ParentPair)
    requires key !in Pairs(regs)
    ensures ChildrenOf(regs, key) == []
  {
    if |regs| > 0 {
      var regs' := regs[..|regs| - 1];
      assert Pairs(regs') == Pairs(regs)[..|regs| - 1];
      ChildrenOfAbsent(regs', key);
    }
  }

  /** A sequence without repetitions has as many distinct elements as positions. */
  lemma {:induction false} DistinctCard<T>(s: seq<T>)
    requires forall i, j :: 0 <= i < j < |s| ==> s[i] != s[j]
    ensures |set x | x in s| == |s|
  {
    if |s| > 0 {
      var s' := s[..|s| - 1];
      DistinctCard(s');
      var last := s[|s| - 1];
      assert (set x | x in s) == (set x | x in s') + {last} by {
        assert s == s' + [last];
      }
      assert last !in s';
    }
  }

  /** The number of families is the number of distinct parent pairs among the calls. */
  lemma FamilyCount(regs: seq<Registration>)
    ensures |BuildRegistry(regs)| == |set r | r in regs :: r.parents|
  {
    BuildKeys(regs);
    var d := Dedup(Pairs(regs));
    DedupMembers(Pairs(regs));
    DistinctCard(d);
    assert (set x | x in d) == (set r | r in regs :: r.parents) by {
      forall x | x in d ensures x in (set r | r in regs :: r.parents) {
        var i :| 0 <= i < |Pairs(regs)| && Pairs(regs)[i] == x;
        assert regs[i] in regs;
      }
    }
  }

  /** The IDs added for person p by one family: once as its father, once as its mother. */
  function OwnIds(e: FamilyEntry, p: string): seq<nat> {
    (if e.parents.father == p then [e.id] else []) + (if e.parents.mother == p then [e.id] else [])
  }

  /** The value of the spouse map for person p: family numbers in discovery order. */
  function SpouseIds(reg: Registry, p: string): seq<nat> {
    if |reg| == 0 then [] else SpouseIds(reg[..|reg| - 1], p) + OwnIds(reg[|reg| - 1], p)
  }

  /** p is the father or the mother of some family. */
  predicate IsParentIn(reg: Registry, p: string) {
    exists i :: 0 <= i < |reg| && (reg[i].parents.father == p || reg[i].parents.mother == p)
  }

  /** The map getSpouseMap returns: each non-empty parent ID, and no other, mapped to its SpouseIds. */
  ghost predicate IsSpouseMap(m: map<string, seq<nat>>, reg: Registry) {
    && (forall p :: p in m <==> p != "" && IsParentIn(reg, p))
    && (forall p :: p in m ==> m[p] == SpouseIds(reg, p))
  }

  /** Family number x is in p's spouse list exactly when p is the father or the mother of family x. */
  lemma {:induction false} SpouseIdsMembers(reg: Registry, p: string, x: nat)
    requires WellFormed(reg)
    ensures x in SpouseIds(reg, p) <==>
      1 <= x <= |reg| && (reg[x - 1].parents.father == p || reg[x - 1].parents.mother == p)
  {
    if |reg| > 0 {
      var reg' := reg[..|reg| - 1];
      var last := reg[|reg| - 1];
      assert WellFormed(reg') by {
        assert forall i :: 0 <= i < |reg'| ==> reg'[i] == reg[i];
      }
      SpouseIdsMembers(reg', p, x);
      assert x in OwnIds(last, p) <==> x == |reg| && (last.parents.father == p || last.parents.mother == p);
      if 1 <= x < |reg| {
        assert reg[x - 1] == reg'[x - 1];
      }
    }
  }

  /**
   * Unless p is both father and mother of one family, the numbers in p's spouse list increase
   * strictly: each family appears once, in discovery order.
   */
  lemma {:induction false} SpouseIdsAscending(reg: Registry, p: string)
    requires WellFormed(reg)
    requires forall i :: 0 <= i < |reg| ==> !(reg[i].parents.father == p && reg[i].parents.mother == p)
    ensures forall a, b :: 0 <= a < b < |SpouseIds(reg, p)| ==> SpouseIds(reg, p)[a] < SpouseIds(reg, p)[b]
  {
    if |reg| > 0 {
      var reg' := reg[..|reg| - 1];
      SpouseIdsAscending(reg', p);
      var s' := SpouseIds(reg', p);
      var own := OwnIds(reg[|reg| - 1], p);
      var s := SpouseIds(reg, p);
      assert |own| <= 1;
      forall a, b | 0 <= a < b < |s| ensures s[a] < s[b] {
        if b >= |s'| {
          assert s[b] == |reg|;
          SpouseIdsMembers(reg', p, s'[a]);
        }
      }
    }
  }

  /** The number of families in which p is the father or the mother. */
  function ParentCount(reg: Registry, p: string): nat {
    if |reg| == 0 then 0
    else
      var e := reg[|reg| - 1];
      ParentCount(reg[..|reg| - 1], p) + (if e.parents.father == p || e.parents.mother == p then 1 else 0)
  }

  /** A person who is a parent in k families (never both parents of one) has k spouse entries. */
  lemma {:induction false} SpouseIdsCount(reg: Registry, p: string)
    requires forall i :: 0 <= i < |reg| ==> !(reg[i].parents.father == p && reg[i].parents.mother == p)
    ensures |SpouseIds(reg, p)| == ParentCount(reg, p)
  {
    if |reg| > 0 {
      SpouseIdsCount(reg[..|reg| - 1], p);
    }
  }

  /** The CHIL lines of a family, one per child, in stored order. */
  function ChildLines(children: seq<nat>): (ls: seq<GedLine>)
    ensures |ls| == |children| && forall i :: 0 <= i < |ls| ==> ls[i].tag == "CHIL" && ls[i].level == 1
    ensures forall i :: 0 <= i < |ls| ==> ls[i].value == Some(Pointer("I" + NatText(children[i])))
  {
    seq(|children|, i requires 0 <= i < |children| => Tagged(1, "CHIL", Pointer("I" + NatText(children[i]))))
  }

  /** The identifier line of a family record. */
  function FamHeader(id: nat): GedLine {
    GedLine(0, Some("F" + NatText(id)), "FAM", None)
  }

  /** A parent ID that FamilyMapping.printGedcom looks up and does not find. */
  predicate Dangling(p: string, ids: map<string, nat>) {
    p != "" && p !in ids
  }

  /** One FAM record: its header, HUSB and WIFE when known, then one CHIL per child. */
  function FamRecord(e: FamilyEntry, ids: map<string, nat>): (r: Result<seq<GedLine>>)
    ensures r.Err? <==> Dangling(e.parents.father, ids) || Dangling(e.parents.mother, ids)
    ensures r.Err? ==>
      r.error == KeyError(if Dangling(e.parents.father, ids) then e.parents.father else e.parents.mother)
  {
    var f := e.parents.father;
    var m := e.parents.mother;
    if Dangling(f, ids) then Err(KeyError(f))
    else if Dangling(m, ids) then Err(KeyError(m))
    else Ok([FamHeader(e.id)] + RoleLines("HUSB", f, ids) + RoleLines("WIFE", m, ids) + ChildLines(e.children))
  }

  /** The HUSB or WIFE line of a known parent, pointing at the parent's INDI record; none for an unknown one. */
  function RoleLines(tag: string, p: string, ids: map<string, nat>): (ls: seq<GedLine>)
    requires !Dangling(p, ids)
    ensures |ls| == (if p == "" then 0 else 1)
  {
    if p != "" then [Tagged(1, tag, Pointer("I" + NatText(ids[p])))] else []
  }

  /** Every HUSB and WIFE line points at the synthetic ID of some known person. */
  ghost predicate RolesKnown(ls: seq<GedLine>, ids: map<string, nat>) {
    forall k :: 0 <= k < |ls| && (ls[k].tag == "HUSB" || ls[k].tag == "WIFE") ==>
      exists p :: p in ids && ls[k].value == Some(Pointer("I" + NatText(ids[p])))
  }

  lemma RolesKnownAppend(a: seq<GedLine>, b: seq<GedLine>, ids: map<string, nat>)
    requires RolesKnown(a, ids) && RolesKnown(b, ids)
    ensures RolesKnown(a + b, ids)
  {
    forall k | 0 <= k < |a + b| && ((a + b)[k].tag == "HUSB" || (a + b)[k].tag == "WIFE")
      ensures exists p :: p in ids && (a + b)[k].value == Some(Pointer("I" + NatText(ids[p])))
    {
      if k < |a| {
        assert (a + b)[k] == a[k];
      } else {
        assert (a + b)[k] == b[k - |a|];
      }
    }
  }

  /** The HUSB and WIFE lines of a FAM record point at the synthetic IDs of known people: the lookup that would raise is guarded. */
  lemma FamRecordRoles(e: FamilyEntry, ids: map<string, nat>)
    requires !Dangling(e.parents.father, ids) && !Dangling(e.parents.mother, ids)
    ensures RolesKnown([FamHeader(e.id)] + RoleLines("HUSB", e.parents.father, ids)
                       + RoleLines("WIFE", e.parents.mother, ids) + ChildLines(e.children), ids)
  {
    var h := [FamHeader(e.id)];
    var f := RoleLines("HUSB", e.parents.father, ids);
    var m := RoleLines("WIFE", e.parents.mother, ids);
    var c := ChildLines(e.children);
    assert RolesKnown(h, ids);
    assert RolesKnown(c, ids);
    if e.parents.father != "" {
      assert f[0].value == Some(Pointer("I" + NatText(ids[e.parents.father])));
    }
    if e.parents.mother != "" {
      assert m[0].value == Some(Pointer("I" + NatText(ids[e.parents.mother])));
    }
    RolesKnownAppend(h, f, ids);
    RolesKnownAppend(h + f, m, ids);
    RolesKnownAppend(h + f + m, c, ids);
  }

  /** A printed FAM record names the family's father on its only HUSB line and its mother on its only WIFE line. */
  lemma FamRecordParents(e: FamilyEntry, ids: map<string, nat>)
    requires FamRecord(e, ids).Ok?
    ensures e.parents.father == "" ==> WithTag(FamRecord(e, ids).value, "HUSB") == []
    ensures e.parents.father != "" ==>
      WithTag(FamRecord(e, ids).value, "HUSB") == [Tagged(1, "HUSB", Pointer("I" + NatText(ids[e.parents.father])))]
    ensures e.parents.mother == "" ==> WithTag(FamRecord(e, ids).value, "WIFE") == []
    ensures e.parents.mother != "" ==>
      WithTag(FamRecord(e, ids).value, "WIFE") == [Tagged(1, "WIFE", Pointer("I" + NatText(ids[e.parents.mother])))]
  {
    var h := [FamHeader(e.id)];
    var f := RoleLines("HUSB", e.parents.father, ids);
    var m := RoleLines("WIFE", e.parents.mother, ids);
    var c := ChildLines(e.children);
    assert FamRecord(e, ids).value == h + f + m + c;
    RolesOfRecord(h, f, m, c);
  }

  /** The HUSB lines of a record h + f + m + c are f and its WIFE lines are m, when h and c carry neither tag. */
  lemma RolesOfRecord(h: seq<GedLine>, f: seq<GedLine>, m: seq<GedLine>, c: seq<GedLine>)
    requires NoTag(h, "HUSB") && NoTag(h, "WIFE") && NoTag(c, "HUSB") && NoTag(c, "WIFE")
    requires forall i :: 0 <= i < |f| ==> f[i].tag == "HUSB"
    requires forall i :: 0 <= i < |m| ==> m[i].tag == "WIFE"
    ensures WithTag(h + f + m + c, "HUSB") == f
    ensures WithTag(h + f + m + c, "WIFE") == m
  {
    RoleOfRecord(h, f, m, c, "HUSB", "WIFE");
    assert WithTag(h + f + m + c, "WIFE") == m by {
      assert NoTag(h + f, "WIFE");
      assert h + f + m + c == (h + f) + m + [] + c;
      RoleOfRecord(h + f, m, [], c, "WIFE", "HUSB");
    }
  }

  /**
   * In a record h + r + o + c whose header and child lines carry neither role tag, the lines with
   * the tag of the role lines r are r, when the other role lines o carry the other tag only.
   */
  lemma RoleOfRecord(h: seq<GedLine>, r: seq<GedLine>, o: seq<GedLine>, c: seq<GedLine>, tag: string, other: string)
    requires NoTag(h, tag) && NoTag(c, tag) && tag != other
    requires forall i :: 0 <= i < |r| ==> r[i].tag == tag
    requires forall i :: 0 <= i < |o| ==> o[i].tag == other
    ensures WithTag(h + r + o + c, tag) == r
  {
    assert WithTag(h, tag) == [] && WithTag(o, tag) == [] && WithTag(c, tag) == [] by {
      WithTagNone(h, tag);
      assert NoTag(o, tag);
      WithTagNone(o, tag);
      WithTagNone(c, tag);
    }
    assert WithTag(r, tag) == r by {
      WithTagAll(r, tag);
    }
    WithTagOfFour(h, r, o, c, tag);
    assert [] + r + [] + [] == r;
  }

  /** The FAM records of every family, in discovery order; the first dangling parent ID raises, so every printed HUSB and WIFE line names a known person. */
  function FamRecords(reg: Registry, ids: map<string, nat>): (r: Result<seq<GedLine>>)
    ensures r.Ok? ==> RolesKnown(r.value, ids)
  {
    if |reg| == 0 then Ok([])
    else
      var before :- FamRecords(reg[..|reg| - 1], ids);
      var last :- FamRecord(reg[|reg| - 1], ids);
      var e := reg[|reg| - 1];
      FamRecordRoles(e, ids);
      RolesKnownAppend(before, last, ids);
      Ok(before + last)
  }

  /** Printing the families fails exactly when some family names a parent that is no row. */
  lemma {:induction false} FamRecordsFail(reg: Registry, ids: map<string, nat>)
    ensures FamRecords(reg, ids).Err? <==>
      exists i :: 0 <= i < |reg| && (Dangling(reg[i].parents.father, ids) || Dangling(reg[i].parents.mother, ids))
  {
    if |reg| > 0 {
      var reg' := reg[..|reg| - 1];
      FamRecordsFail(reg', ids);
      if FamRecords(reg', ids).Err? {
        var i :| 0 <= i < |reg'| && (Dangling(reg'[i].parents.father, ids) || Dangling(reg'[i].parents.mother, ids));
        assert reg[i] == reg'[i];
      }
    }
  }

  /** One FAM record starts exactly one record: its header. */
  lemma FamRecordShape(e: FamilyEntry, ids: map<string, nat>)
    requires FamRecord(e, ids).Ok?
    ensures Records(FamRecord(e, ids).value) == [FamHeader(e.id)]
  {
    var rest := RoleLines("HUSB", e.parents.father, ids) + RoleLines("WIFE", e.parents.mother, ids) + ChildLines(e.children);
    assert FamRecord(e, ids).value == [FamHeader(e.id)] + rest;
    OneRecord(FamHeader(e.id), rest);
  }

  /** The headers of the families' FAM records, in discovery order. */
  function FamHeaders(reg: Registry): (hs: seq<GedLine>)
    ensures |hs| == |reg| && forall i :: 0 <= i < |reg| ==> hs[i] == FamHeader(reg[i].id)
  {
    if |reg| == 0 then []
    else
      var hs' := FamHeaders(reg[..|reg| - 1]);
      assert forall i :: 0 <= i < |reg| - 1 ==> reg[..|reg| - 1][i] == reg[i];
      hs' + [FamHeader(reg[|reg| - 1].id)]
  }

  /** A successful print of n families is the print of the first n - 1 followed by the last record. */
  lemma FamRecordsStep(reg: Registry, ids: map<string, nat>)
    requires |reg| > 0 && FamRecords(reg, ids).Ok?
    ensures FamRecords(reg[..|reg| - 1], ids).Ok? && FamRecord(reg[|reg| - 1], ids).Ok?
    ensures FamRecords(reg, ids).value
      == FamRecords(reg[..|reg| - 1], ids).value + FamRecord(reg[|reg| - 1], ids).value
  {
  }

  /** The FAM records form one record per family, in discovery order, each starting with its header. */
  lemma {:induction false} FamRecordsHeaders(reg: Registry, ids: map<string, nat>)
    requires FamRecords(reg, ids).Ok?
    ensures Records(FamRecords(reg, ids).value) == FamHeaders(reg)
  {
    if |reg| > 0 {
      var reg' := reg[..|reg| - 1];
      FamRecordsHeaders(reg', ids);
      var e := reg[|reg| - 1];
      FamRecordsStep(reg, ids);
      FamRecordShape(e, ids);
      RecordsAppend(FamRecords(reg', ids).value, FamRecord(e, ids).value);
    }
  }


  /** setdefault(p, []).append(id) for a non-empty key p; an empty key is skipped. */
  function AddSpouse(m: map<string, seq<nat>>, p: string, id: nat): map<string, seq<nat>> {
    if p != "" then m[p := (if p in m then m[p] else []) + [id]] else m
  }

  /** The spouse map built family by family, father before mother, as getSpouseMap builds it. */
  function SpouseMap(reg: Registry): (m: map<string, seq<nat>>)
    ensures "" !in m
    ensures forall p :: p in m ==> m[p] != []
  {
    if |reg| == 0 then map[]
    else
      var e := reg[|reg| - 1];
      AddSpouse(AddSpouse(SpouseMap(reg[..|reg| - 1]), e.parents.father, e.id), e.parents.mother, e.id)
  }

  /** The spouse map of the first i + 1 families extends that of the first i with family i. */
  lemma SpouseMapPrefix(reg: Registry, i: nat)
    requires i < |reg|
    ensures SpouseMap(reg[..i + 1])
      == AddSpouse(AddSpouse(SpouseMap(reg[..i]), reg[i].parents.father, reg[i].id), reg[i].parents.mother, reg[i].id)
  {
    assert reg[..i + 1][..i] == reg[..i];
  }

  /** One more family: p is a parent in all of them iff in the earlier ones or in the last one. */
  lemma ParentInStep(reg: Registry, p: string)
    requires |reg| > 0
    ensures IsParentIn(reg, p) <==>
      (IsParentIn(reg[..|reg| - 1], p) || reg[|reg| - 1].parents.father == p || reg[|reg| - 1].parents.mother == p)
  {
    var reg' := reg[..|reg| - 1];
    if IsParentIn(reg', p) {
      var j :| 0 <= j < |reg'| && (reg'[j].parents.father == p || reg'[j].parents.mother == p);
      assert reg[j] == reg'[j];
    }
  }

  /** The spouse map has exactly the non-empty parent IDs as keys, each mapped to its SpouseIds. */
  lemma {:induction false} SpouseMapEntry(reg: Registry, p: string)
    ensures p in SpouseMap(reg) <==> p != "" && IsParentIn(reg, p)
    ensures p in SpouseMap(reg) ==> SpouseMap(reg)[p] == SpouseIds(reg, p)
  {
    if |reg| > 0 {
      var reg' := reg[..|reg| - 1];
      SpouseMapEntry(reg', p);
      ParentInStep(reg, p);
      if p != "" && p !in SpouseMap(reg') {
        SpouseIdsAbsent(reg', p);
      }
    }
  }

  /** SpouseMap is the map getSpouseMap promises. */
  lemma SpouseMapMeaning(reg: Registry)
    ensures IsSpouseMap(SpouseMap(reg), reg)
  {
    forall p ensures p in SpouseMap(reg) <==> p != "" && IsParentIn(reg, p) {
      SpouseMapEntry(reg, p);
    }
    forall p | p in SpouseMap(reg) ensures SpouseMap(reg)[p] == SpouseIds(reg, p) {
      SpouseMapEntry(reg, p);
    }
  }

  /** Printing one more family: an earlier error stands, else the record of the new family is appended. */
  lemma FamRecordsPrefix(reg: Registry, i: nat, ids: map<string, nat>)
    requires i < |reg|
    ensures FamRecords(reg[..i + 1], ids) ==
      if FamRecords(reg[..i], ids).Err? then FamRecords(reg[..i], ids)
      else if FamRecord(reg[i], ids).Err? then Err(FamRecord(reg[i], ids).error)
      else Ok(FamRecords(reg[..i], ids).value + FamRecord(reg[i], ids).value)
  {
    assert reg[..i + 1][..i] == reg[..i];
  }

  /** Once printing a prefix of the families fails, printing all of them fails with the same error. */
  lemma {:induction false} FamRecordsErrSticks(reg: Registry, i: nat, ids: map<string, nat>)
    requires i <= |reg| && FamRecords(reg[..i], ids).Err?
    ensures FamRecords(reg, ids) == FamRecords(reg[..i], ids)
    decreases |reg| - i
  {
    if i < |reg| {
      FamRecordsPrefix(reg, i, ids);
      FamRecordsErrSticks(reg, i + 1, ids);
    } else {
      assert reg[..i] == reg;
    }
  }

  /** Nobody who is not a parent has a spouse list. */
  lemma {:induction false} SpouseIdsAbsent(reg: Registry, p: string)
    requires !IsParentIn(reg, p)
    ensures SpouseIds(reg, p) == []
  {
    if |reg| > 0 {
      SpouseIdsAbsent(reg[..|reg| - 1], p);
    }
  }

  /** Registering under a known pair appends the child to that family only. */
  lemma RegisterExisting(reg: Registry, i: nat, child: nat)
    requires WellFormed(reg) && i < |reg|
    ensures Register(reg, reg[i].parents, child) == reg[i := reg[i].(children := reg[i].children + [child])]
  {
    assert Find(reg, reg[i].parents) == Some(i);
  }

  /** Registering under a new pair adds a family numbered one past the last. */
  lemma RegisterNew(reg: Registry, key: ParentPair, child: nat)
    requires WellFormed(reg) && forall i :: 0 <= i < |reg| ==> reg[i].parents != key
    ensures Register(reg, key, child) == reg + [FamilyEntry(key, |reg| + 1, [child])]
  {
    assert Find(reg, key).None?;
  }
}

=== FILE: text.dfy ===
/**
 * The string operations of Python that the converter relies on, written out:
 * str.strip(), str.split(sep), str.split(), ' '.join(...), int(...), str(int),
 * slicing s[1:-1] and the '{:,.0f}' number format.
 */
module Text {
  import opened Wrappers

  /** Python's str.isspace() for one character. */
  predicate IsSpace(c: char) {
    c == ' ' || c == '\t' || c == '\n' || c == '\r' || c == '\U{B}' || c == '\U{C}'
    || ('\U{1C}' <= c <= '\U{1F}') || c == '\U{85}' || c == '\U{A0}' || c == '\U{1680}'
    || ('\U{2000}' <= c <= '\U{200A}') || c == '\U{2028}' || c == '\U{2029}'
    || c == '\U{202F}' || c == '\U{205F}' || c == '\U{3000}'
  }

  predicate NoSpace(s: string) {
    forall i :: 0 <= i < |s| ==> !IsSpace(s[i])
  }

  /** s.lstrip(): drops the leading white space (see TrimStartDrops for what is dropped). */
  function TrimStart(s: string): (r: string)
    ensures |r| <= |s|
    ensures r == [] || !IsSpace(r[0])
  {
    if |s| > 0 && IsSpace(s[0]) then TrimStart(s[1..]) else s
  }

  /** s.rstrip(): drops the trailing white space (see TrimEndDrops for what is dropped). */
  function TrimEnd(s: string): (r: string)
    ensures |r| <= |s|
    ensures r == [] || !IsSpace(r[|r| - 1])
  {
    if |s| > 0 && IsSpace(s[|s| - 1]) then TrimEnd(s[..|s| - 1]) else s
  }

  /** lstrip() keeps a suffix of the text and drops only white space before it. */
  lemma {:induction false} TrimStartDrops(s: string)
    ensures var r := TrimStart(s);
      r == s[|s| - |r|..] && forall i :: 0 <= i < |s| - |r| ==> IsSpace(s[i])
    decreases |s|
  {
    if |s| > 0 && IsSpace(s[0]) {
      TrimStartDrops(s[1..]);
    }
  }

  /** rstrip() keeps a prefix of the text and drops only white space after it. */
  lemma {:induction false} TrimEndDrops(s: string)
    ensures var r := TrimEnd(s);
      r == s[..|r|] && forall i :: |r| <= i < |s| ==> IsSpace(s[i])
    decreases |s|
  {
    if |s| > 0 && IsSpace(s[|s| - 1]) {
      TrimEndDrops(s[..|s| - 1]);
    }
  }

  /** s.strip() */
  function Strip(s: string): string {
    TrimEnd(TrimStart(s))
  }

  /** The position of the first occurrence of c in s. */
  function IndexOf(s: string, c: char): (i: nat)
    requires c in s
    ensures i < |s| && s[i] == c && c !in s[..i]
  {
    if s[0] == c then 0 else 1 + IndexOf(s[1..], c)
  }

  /** s.split(sep) for a one-character separator: every occurrence cuts, empty pieces are kept. */
  function Split(s: string, sep: char): (parts: seq<string>)
    ensures |parts| >= 1
    ensures forall i :: 0 <= i < |parts| ==> sep !in parts[i]
    ensures sep !in s ==> parts == [s]
    ensures sep in s ==> |parts| >= 2
    decreases |s|
  {
    if sep in s then
      var i := IndexOf(s, sep);
      [s[..i]] + Split(s[i + 1..], sep)
    else
      [s]
  }

  /** sep.join(parts) */
  function Join(parts: seq<string>, sep: string): string {
    if |parts| == 0 then ""
    else if |parts| == 1 then parts[0]
    else parts[0] + sep + Join(parts[1..], sep)
  }

  /** Pieces without c, joined by a separator without c, give a text without c. */
  lemma {:induction false} JoinHasNo(parts: seq<string>, sep: string, c: char)
    requires forall i :: 0 <= i < |parts| ==> c !in parts[i]
    requires c !in sep
    ensures c !in Join(parts, sep)
  {
    if |parts| > 1 {
      JoinHasNo(parts[1..], sep, c);
    }
  }

  /** strip() only removes characters. */
  lemma StripHasNo(s: string, c: char)
    requires c !in s
    ensures c !in Strip(s)
  {
    TrimStartDrops(s);
    TrimEndDrops(TrimStart(s));
  }

  /** Cutting at the first separator: the piece before it, then the pieces of the rest. */
  lemma SplitAt(a: string, sep: char, b: string)
    requires sep !in a
    ensures Split(a + [sep] + b, sep) == [a] + Split(b, sep)
  {
    var s := a + [sep] + b;
    assert s[|a|] == sep;
    var i := IndexOf(s, sep);
    assert s[..|a|] == a;
    assert i == |a|;
    assert s[i + 1..] == b;
  }

  /** Splitting then joining with the same separator gives back the original text. */
  lemma {:induction false} JoinSplit(s: string, sep: char)
    ensures Join(Split(s, sep), [sep]) == s
    decreases |s|
  {
    if sep in s {
      var i := IndexOf(s, sep);
      var rest := Split(s[i + 1..], sep);
      JoinSplit(s[i + 1..], sep);
      assert Split(s, sep) == [s[..i]] + rest;
      assert ([s[..i]] + rest)[1..] == rest;
      assert s == s[..i] + [sep] + s[i + 1..];
    }
  }

  /** The length of the leading run of non-space characters. */
  function WordLen(s: string): (n: nat)
    ensures n <= |s| && (n == |s| || IsSpace(s[n]))
    ensures forall i :: 0 <= i < n ==> !IsSpace(s[i])
  {
    if |s| == 0 || IsSpace(s[0]) then 0 else 1 + WordLen(s[1..])
  }

  /** s.split() with no argument: the maximal runs of non-space characters, in order. */
  function Words(s: string): (ws: seq<string>)
    ensures forall i :: 0 <= i < |ws| ==> ws[i] != [] && NoSpace(ws[i])
    decreases |s|
  {
    var t := TrimStart(s);
    TrimStartDrops(s);
    if t == [] then []
    else
      var n := WordLen(t);
      assert n > 0;
      var w := t[..n];
      assert NoSpace(w);
      var rest := Words(t[n..]);
      assert forall i :: 0 < i < |rest| + 1 ==> ([w] + rest)[i] == rest[i - 1];
      [w] + rest
  }

  /** Two space-free tokens separated by one blank are read back as exactly those two words. */
  lemma WordsOfTwo(a: string, b: string)
    requires a != [] && b != [] && NoSpace(a) && NoSpace(b)
    ensures Words(a + " " + b) == [a, b]
  {
    var s := a + " " + b;
    assert s[0] == a[0];
    assert TrimStart(s) == s;
    assert s[|a|] == ' ';
    var n := WordLen(s);
    assert n == |a|;
    assert s[..n] == a;
    var rest := s[n..];
    assert rest == " " + b;
    assert TrimStart(rest) == TrimStart(b) by {
      assert rest[1..] == b;
    }
    assert TrimStart(b) == b;
    assert WordLen(b) == |b|;
    assert b[..|b|] == b;
    assert b[|b|..] == [];
    assert Words(b) == [b] + Words([]);
  }

  /** Text that is all white space has no words. */
  lemma WordsOfSpace(s: string)
    requires forall i :: 0 <= i < |s| ==> IsSpace(s[i])
    ensures Words(s) == []
  {
    TrimStartDrops(s);
  }

  /** lstrip() drops a run of white space in front of text that does not start with white space. */
  lemma {:induction false} TrimStartSpaces(a: string, t: string)
    requires forall i :: 0 <= i < |a| ==> IsSpace(a[i])
    requires t == [] || !IsSpace(t[0])
    ensures TrimStart(a + t) == t
    decreases |a|
  {
    if |a| > 0 {
      assert (a + t)[1..] == a[1..] + t;
      TrimStartSpaces(a[1..], t);
    } else {
      assert a + t == t;
    }
  }

  /** The leading word of w + b is w when w has no white space and b starts with white space or is empty. */
  lemma {:induction false} WordLenOf(w: string, b: string)
    requires NoSpace(w) && (b == [] || IsSpace(b[0]))
    ensures WordLen(w + b) == |w|
    decreases |w|
  {
    if |w| > 0 {
      assert (w + b)[1..] == w[1..] + b;
      WordLenOf(w[1..], b);
    } else {
      assert w + b == b;
    }
  }

  /**
   * split() reads a word after leading white space and goes on after it: for white space a, a
   * non-empty word w, and a rest b that is empty or starts with white space,
   * Words(a + w + b) == [w] + Words(b). With WordsOfSpace this determines Words on every text.
   */
  lemma WordsStep(a: string, w: string, b: string)
    requires forall i :: 0 <= i < |a| ==> IsSpace(a[i])
    requires w != [] && NoSpace(w) && (b == [] || IsSpace(b[0]))
    ensures Words(a + w + b) == [w] + Words(b)
  {
    var t := w + b;
    assert a + w + b == a + t;
    TrimStartSpaces(a, t);
    WordLenOf(w, b);
    assert t[..|w|] == w && t[|w|..] == b;
  }

  /** Python's s[1:-1]: the text without its first and last character. */
  function Inner(s: string): (r: string)
    ensures |s| >= 2 ==> |r| == |s| - 2 && forall i :: 0 <= i < |r| ==> r[i] == s[i + 1]
    ensures |s| < 2 ==> r == ""
  {
    if |s| <= 2 then "" else s[1..|s| - 1]
  }

  predicate IsDigit(c: char) {
    '0' <= c <= '9'
  }

  predicate AllDigits(s: string) {
    |s| > 0 && forall i :: 0 <= i < |s| ==> IsDigit(s[i])
  }

  /** The value of a string of decimal digits, read left to right. */
  function DigitsValue(s: string): nat
    requires forall i :: 0 <= i < |s| ==> IsDigit(s[i])
  {
    if |s| == 0 then 0
    else
      assert IsDigit(s[|s| - 1]);
      DigitsValue(s[..|s| - 1]) * 10 + (s[|s| - 1] as int - '0' as int)
  }

  /**
   * Python's int(s) on text: white space around an optional sign and at least one decimal
   * digit; anything else raises ValueError (None here).
   */
  function ParseInt(s: string): Option<int> {
    var t := Strip(s);
    if |t| > 0 && (t[0] == '+' || t[0] == '-') then
      if AllDigits(t[1..]) then
        var d: int := DigitsValue(t[1..]);
        Some(if t[0] == '-' then -d else d)
      else None
    else if AllDigits(t) then Some(DigitsValue(t))
    else None
  }

  function DigitChar(d: nat): (c: char)
    requires d < 10
    ensures IsDigit(c) && c as int - '0' as int == d
  {
    ('0' as int + d) as char
  }

  /** str(n) for a natural number: the canonical decimal text, read back as n, without leading zeros. */
  function NatText(n: nat): (s: string)
    ensures AllDigits(s) && DigitsValue(s) == n
    ensures |s| == 1 || s[0] != '0'
  {
    if n < 10 then [DigitChar(n)]
    else
      var s := NatText(n / 10) + [DigitChar(n % 10)];
      assert s[..|s| - 1] == NatText(n / 10);
      s
  }

  /** str(n) for any integer. */
  function IntText(n: int): string {
    if n < 0 then "-" + NatText(-n) else NatText(n)
  }

  /** int(str(n)) == n */
  lemma ParseIntText(n: int)
    ensures ParseInt(IntText(n)) == Some(n)
  {
    var s := IntText(n);
    var d := NatText(if n < 0 then -n else n);
    assert s[|s| - 1] == d[|d| - 1];
    assert !IsSpace(s[0]) && !IsSpace(s[|s| - 1]);
    assert TrimStart(s) == s;
    assert Strip(s) == s;
    if n < 0 {
      assert s[1..] == d;
    }
  }

  /** The decimal text of a number never holds the given non-digit character. */
  lemma IntTextHasNo(n: int, c: char)
    requires !IsDigit(c) && c != '-'
    ensures c !in IntText(n)
  {
    var d := NatText(if n < 0 then -n else n);
    if n < 0 {
      assert IntText(n) == "-" + d;
      assert forall i :: 1 <= i < |IntText(n)| ==> IntText(n)[i] == d[i - 1];
    }
  }

  /** Upper-casing of ASCII letters; every other character is kept. */
  function UpperAscii(s: string): (r: string)
    ensures |r| == |s|
    ensures forall i :: 0 <= i < |s| ==> r[i] == if 'a' <= s[i] <= 'z' then (s[i] as int - 32) as char else s[i]
  {
    if |s| == 0 then ""
    else [if 'a' <= s[0] <= 'z' then (s[0] as int - 32) as char else s[0]] + UpperAscii(s[1..])
  }

  /** Three decimal digits with leading zeros, as in the groups of '{:,}'. */
  function Pad3(n: nat): string
    requires n < 1000
  {
    if n < 10 then "00" + NatText(n) else if n < 100 then "0" + NatText(n) else NatText(n)
  }

  /** Python's '{:,.0f}'.format(n) for a natural number: decimal text with a comma between groups of three. */
  function GroupedText(n: nat): string {
    if n < 1000 then NatText(n) else GroupedText(n / 1000) + "," + Pad3(n % 1000)
  }

  /** From 1000 on, the grouped form differs from str(n): it holds a comma. */
  lemma GroupedDiffers(n: nat)
    requires n >= 1000
    ensures ',' in GroupedText(n) && GroupedText(n) != NatText(n)
  {
    var g := GroupedText(n);
    var head := GroupedText(n / 1000);
    assert g == head + "," + Pad3(n % 1000);
    assert g[|head|] == ',';
  }
}

=== FILE: tree_properties.dfy ===
/**
 * What the converter promises about a whole table: the numbering of the people, which family
 * each person is a child of, how many families there are, the spouse lists, the picture
 * numbering, the SEX and DEAT lines, the order of the records, and that the FAMC pointers
 * name existing FAM records.
 */
module TreeProperties {
  import opened Wrappers
  import opened Text
  import opened GedcomLines
  import opened Formatters
  import opened Registry
  import opened FamilyTree

  /** No two rows share an ID; the converter assumes this without checking it. */
  predicate DistinctIds(rows: seq<Row>) {
    forall i, j :: 0 <= i < j < |rows| ==> rows[i].id != rows[j].id
  }

  /** The synthetic IDs are given to exactly the IDs of the table. */
  lemma {:induction false} IdMapDomain(rows: seq<Row>, id: string)
    ensures id in IdMap(rows) <==> exists i :: 0 <= i < |rows| && rows[i].id == id
    decreases |rows|
  {
    if |rows| > 0 {
      var rows' := rows[..|rows| - 1];
      IdMapDomain(rows', id);
      if id in IdMap(rows') {
        var i :| 0 <= i < |rows'| && rows'[i].id == id;
        assert rows[i].id == id;
      }
    }
  }

  /** An ID's synthetic ID is one more than the position of the last row with that ID. */
  lemma {:induction false} IdMapLastWins(rows: seq<Row>, i: nat)
    requires i < |rows|
    ensures var k := IdMap(rows)[rows[i].id];
      i < k <= |rows| && rows[k - 1].id == rows[i].id
      && forall j :: k <= j < |rows| ==> rows[j].id != rows[i].id
    decreases |rows|
  {
    var n := |rows|;
    if rows[n - 1].id != rows[i].id {
      var rows' := rows[..n - 1];
      assert rows'[i] == rows[i];
      IdMapLastWins(rows', i);
    }
  }

  /** With distinct IDs, row i gets the synthetic ID i + 1. */
  lemma IdMapDistinct(rows: seq<Row>, i: nat)
    requires DistinctIds(rows) && i < |rows|
    ensures IdMap(rows)[rows[i].id] == i + 1
  {
    IdMapLastWins(rows, i);
  }

  /** A call of the constructor's loop is made exactly for a row with a known parent. */
  lemma {:induction false} RegistrationMembers(rows: seq<Row>, ids: map<string, nat>, r: Registration)
    requires Numbered(rows, ids)
    ensures r in Registrations(rows, ids) <==>
      exists i :: 0 <= i < |rows| && HasKnownParent(rows[i]) && r == Registration(PairOf(rows[i]), ids[rows[i].id])
    decreases |rows|
  {
    if |rows| > 0 {
      var rows' := rows[..|rows| - 1];
      assert Numbered(rows', ids);
      RegistrationMembers(rows', ids, r);
      if exists i :: 0 <= i < |rows'| && HasKnownParent(rows'[i]) && r == Registration(PairOf(rows'[i]), ids[rows'[i].id]) {
        var i :| 0 <= i < |rows'| && HasKnownParent(rows'[i]) && r == Registration(PairOf(rows'[i]), ids[rows'[i].id]);
        assert rows'[i] == rows[i];
      }
      if exists i :: 0 <= i < |rows| && HasKnownParent(rows[i]) && r == Registration(PairOf(rows[i]), ids[rows[i].id]) {
        var i :| 0 <= i < |rows| && HasKnownParent(rows[i]) && r == Registration(PairOf(rows[i]), ids[rows[i].id]);
        if i < |rows'| {
          assert rows'[i] == rows[i];
        }
      }
    }
  }

  /** A family's children are the synthetic IDs of exactly the rows whose parent pair is the family's. */
  lemma ChildMembership(rows: seq<Row>, f: nat, x: nat)
    requires f < |FamiliesOf(rows)|
    ensures var fam := FamiliesOf(rows)[f];
      x in fam.children <==>
        exists i :: 0 <= i < |rows| && HasKnownParent(rows[i]) && PairOf(rows[i]) == fam.parents && IdMap(rows)[rows[i].id] == x
  {
    var ids := IdMap(rows);
    var regs := Registrations(rows, ids);
    var fam := FamiliesOf(rows)[f];
    BuildChildren(regs);
    assert FamiliesOf(rows) == BuildRegistry(regs);
    assert fam.children == ChildrenOf(regs, fam.parents);
    ChildrenOfMembers(regs, fam.parents, x);
    RegistrationMembers(rows, ids, Registration(fam.parents, x));
    if exists i :: 0 <= i < |rows| && HasKnownParent(rows[i]) && PairOf(rows[i]) == fam.parents && ids[rows[i].id] == x {
      var i :| 0 <= i < |rows| && HasKnownParent(rows[i]) && PairOf(rows[i]) == fam.parents && ids[rows[i].id] == x;
      assert Registration(fam.parents, x) == Registration(PairOf(rows[i]), ids[rows[i].id]);
    }
  }

  /** The parent pair of a row with a known parent is a key of the registry. */
  lemma PairRegistered(rows: seq<Row>, i: nat)
    requires i < |rows| && HasKnownParent(rows[i])
    ensures Find(FamiliesOf(rows), PairOf(rows[i])).Some?
  {
    var ids := IdMap(rows);
    var regs := Registrations(rows, ids);
    var reg := FamiliesOf(rows);
    var r := Registration(PairOf(rows[i]), ids[rows[i].id]);
    RegistrationMembers(rows, ids, r);
    var k :| 0 <= k < |regs| && regs[k] == r;
    assert Pairs(regs)[k] == PairOf(rows[i]);
    BuildKeys(regs);
    DedupMembers(Pairs(regs));
    assert PairOf(rows[i]) in Keys(reg);
  }

  /**
   * __getFAMC on a row of the table never raises: None exactly for a row without a known parent,
   * otherwise the number of the family of the row's parents, which lists the row's synthetic ID
   * among its children.
   */
  lemma FamcOfRow(rows: seq<Row>, i: nat)
    requires i < |rows|
    ensures var reg := FamiliesOf(rows);
      var famc := Famc(reg, rows[i]);
      && famc.Ok?
      && (famc.value.None? <==> !HasKnownParent(rows[i]))
      && (famc.value.Some? ==>
            var id := famc.value.value;
            1 <= id <= |reg| && reg[id - 1].parents == PairOf(rows[i]) && IdMap(rows)[rows[i].id] in reg[id - 1].children)
  {
    if HasKnownParent(rows[i]) {
      var reg := FamiliesOf(rows);
      PairRegistered(rows, i);
      var j := Find(reg, PairOf(rows[i])).value;
      ChildMembership(rows, j, IdMap(rows)[rows[i].id]);
    }
  }

  /** With distinct IDs, row i is a child of a family exactly when it has a known parent and the family is its parents'. */
  lemma ChildOfOwnFamilyOnly(rows: seq<Row>, i: nat, f: nat)
    requires DistinctIds(rows) && i < |rows| && f < |FamiliesOf(rows)|
    ensures i + 1 in FamiliesOf(rows)[f].children <==>
      HasKnownParent(rows[i]) && PairOf(rows[i]) == FamiliesOf(rows)[f].parents
  {
    ChildMembership(rows, f, i + 1);
    IdMapDistinct(rows, i);
    if i + 1 in FamiliesOf(rows)[f].children {
      var j :| 0 <= j < |rows| && HasKnownParent(rows[j]) && PairOf(rows[j]) == FamiliesOf(rows)[f].parents
               && IdMap(rows)[rows[j].id] == i + 1;
      IdMapDistinct(rows, j);
    }
  }

  /** With distinct IDs, no row is a child in two families. */
  lemma ChildInOneFamily(rows: seq<Row>, i: nat, f: nat, g: nat)
    requires DistinctIds(rows) && i < |rows| && f < |FamiliesOf(rows)| && g < |FamiliesOf(rows)|
    requires i + 1 in FamiliesOf(rows)[f].children && i + 1 in FamiliesOf(rows)[g].children
    ensures f == g
  {
    ChildOfOwnFamilyOnly(rows, i, f);
    ChildOfOwnFamilyOnly(rows, i, g);
  }

  /** There is one family per distinct parent pair among the rows with a known parent. */
  lemma FamilyCountOfRows(rows: seq<Row>)
    ensures |FamiliesOf(rows)| == |set i | 0 <= i < |rows| && HasKnownParent(rows[i]) :: PairOf(rows[i])|
  {
    var ids := IdMap(rows);
    var regs := Registrations(rows, ids);
    FamilyCount(regs);
    var a := set r | r in regs :: r.parents;
    var b := set i | 0 <= i < |rows| && HasKnownParent(rows[i]) :: PairOf(rows[i]);
    forall p | p in a ensures p in b {
      var r :| r in regs && r.parents == p;
      RegistrationMembers(rows, ids, r);
    }
    forall p | p in b ensures p in a {
      var i :| 0 <= i < |rows| && HasKnownParent(rows[i]) && PairOf(rows[i]) == p;
      RegistrationMembers(rows, ids, Registration(p, ids[rows[i].id]));
    }
    assert a == b;
  }

  /** The FAMS lines of a person name exactly the families in which the person is the father or the mother. */
  lemma FamsMeaning(reg: Registry, p: string, x: nat)
    requires WellFormed(reg)
    ensures x in FamsOf(SpouseMap(reg), p) <==>
      p != "" && 1 <= x <= |reg| && (reg[x - 1].parents.father == p || reg[x - 1].parents.mother == p)
  {
    SpouseMapEntry(reg, p);
    SpouseIdsMembers(reg, p, x);
    if p !in SpouseMap(reg) && p != "" && 1 <= x <= |reg| {
      assert !IsParentIn(reg, p);
    }
  }

  /** The pictures found in the first rows come first, in the same order. */
  lemma {:induction false} PicturesPrefixOf(rows: seq<Row>, i: nat, picdir: string, existing: set<string>)
    requires i <= |rows|
    ensures Pictures(rows[..i], picdir, existing) <= Pictures(rows, picdir, existing)
    decreases |rows| - i
  {
    if i < |rows| {
      PicturesPrefix(rows, i, picdir, existing);
      PicturesPrefixOf(rows, i + 1, picdir, existing);
    } else {
      assert rows[..i] == rows;
    }
  }

  /** OBJE record k is headed @Ok@ and names the k-th picture. */
  lemma {:induction false} ObjeRecordAt(pics: seq<string>, k: nat)
    requires k < |pics|
    ensures 3 * k + 1 < |ObjeRecords(pics)|
    ensures ObjeRecords(pics)[3 * k] == ObjeHeader(k) && ObjeRecords(pics)[3 * k + 1] == Tagged(1, "FILE", pics[k])
    decreases |pics|
  {
    var n := |pics|;
    if k < n - 1 {
      ObjeRecordAt(pics[..n - 1], k);
      assert pics[..n - 1][k] == pics[k];
    }
  }

  /** A row whose picture exists gets the OBJE number k, the position of its picture in the picture list. */
  lemma PictureIndex(rows: seq<Row>, i: nat, picdir: string, existing: set<string>)
    requires i < |rows|
    ensures var o := ObjeIndex(rows[..i], rows[i], picdir, existing);
      var pics := Pictures(rows, picdir, existing);
      && (o.Some? <==> PicName(picdir, rows[i].id) in existing)
      && (o.Some? ==> o.value < |pics| && pics[o.value] == PicName(picdir, rows[i].id))
  {
    PicturesPrefix(rows, i, picdir, existing);
    PicturesPrefixOf(rows, i + 1, picdir, existing);
  }

  /**
   * The OBJE line of a row whose picture exists points at @Ok@, k the number of pictures found
   * before it (so the first is @O0@), and OBJE record k is headed @Ok@ and names that picture.
   */
  lemma PicturePointer(rows: seq<Row>, i: nat, picdir: string, existing: set<string>)
    requires i < |rows| && PicName(picdir, rows[i].id) in existing
    ensures var k := |Pictures(rows[..i], picdir, existing)|;
      var records := ObjeRecords(Pictures(rows, picdir, existing));
      && ObjeIndex(rows[..i], rows[i], picdir, existing) == Some(k)
      && 3 * k + 1 < |records|
      && records[3 * k] == ObjeHeader(k)
      && ObjeLine(k).value == Some(Pointer(ObjeHeader(k).xref.value))
      && records[3 * k + 1] == Tagged(1, "FILE", PicName(picdir, rows[i].id))
  {
    var k := |Pictures(rows[..i], picdir, existing)|;
    PictureIndex(rows, i, picdir, existing);
    ObjeRecordAt(Pictures(rows, picdir, existing), k);
  }

  /** The tags and levels of the place lines: all at level 2 or deeper. */
  lemma PlaceTags(place: string)
    requires PlaceLines(place).Ok?
    ensures var ls := PlaceLines(place).value;
      forall i :: 0 <= i < |ls| ==> ls[i].tag in {"PLAC", "ADDR", "CITY", "CTRY"} && ls[i].level > 1
  {
    var ls := PlaceLines(place).value;
    if place != "" {
      forall i | 0 <= i < |ls|
        ensures ls[i].tag in {"PLAC", "ADDR", "CITY", "CTRY"} && ls[i].level > 1
      {
        if i == 0 {
          assert ls[i].tag == "PLAC" && ls[i].level == 2;
        } else if i == 1 {
          assert ls[i].tag == "ADDR" && ls[i].level == 2;
        } else if i == 2 {
          assert ls[i].tag == "CITY" && ls[i].level == 3;
        } else {
          assert ls[i].tag == "CTRY" && ls[i].level == 3;
        }
      }
    }
  }

  /** The tags and levels of an event block: the event line, DATE, and the place lines, all nested. */
  lemma EventTags(tag: string, date: Cell, place: string)
    requires EventLines(tag, date, place).Ok?
    ensures var ls := EventLines(tag, date, place).value;
      forall i :: 0 <= i < |ls| ==> ls[i].tag in {tag, "DATE", "PLAC", "ADDR", "CITY", "CTRY"} && ls[i].level > 0
  {
    var ls := EventLines(tag, date, place).value;
    var places := PlaceLines(place).value;
    assert ls == [Bare(1, tag), Tagged(2, "DATE", DateText(date).value)] + places;
    PlaceTags(place);
    forall i | 0 <= i < |ls|
      ensures ls[i].tag in {tag, "DATE", "PLAC", "ADDR", "CITY", "CTRY"} && ls[i].level > 0
    {
      if i == 0 {
        assert ls[i].tag == tag && ls[i].level == 1;
      } else if i == 1 {
        assert ls[i].tag == "DATE" && ls[i].level == 2;
      } else {
        assert ls[i] == places[i - 2];
      }
    }
  }

  /** The tags and levels of the name lines: only the INDI line is at level 0. */
  lemma NameTags(row: Row, gid: nat)
    ensures var ls := NameLines(row, gid);
      && ls[0] == IndiHeader(gid)
      && (forall i :: 0 <= i < |ls| ==> ls[i].tag in {"INDI", "NAME", "GIVN", "SURN", "NICK"})
      && (forall i :: 1 <= i < |ls| ==> ls[i].level > 0)
  {
    var ls := NameLines(row, gid);
    var four := [IndiHeader(gid),
                 Tagged(1, "NAME", GivenNameWithMidname(row) + " /" + SurnameWithPrefix(row) + "/"),
                 Tagged(2, "GIVN", row.firstName),
                 Tagged(2, "SURN", row.lastName)];
    var nick := Optional(2, "NICK", row.nickname);
    assert ls == four + nick;
    forall i | 0 <= i < |ls|
      ensures ls[i].tag in {"INDI", "NAME", "GIVN", "SURN", "NICK"} && (i > 0 ==> ls[i].level > 0)
    {
      if i == 0 {
        assert ls[i] == IndiHeader(gid);
      } else if i == 1 {
        assert ls[i].tag == "NAME" && ls[i].level == 1;
      } else if i == 2 {
        assert ls[i].tag == "GIVN" && ls[i].level == 2;
      } else if i == 3 {
        assert ls[i].tag == "SURN" && ls[i].level == 2;
      } else {
        assert ls[i] == nick[i - 4] == Tagged(2, "NICK", row.nickname);
      }
    }
  }

  /** The tags and levels of the contact lines. */
  lemma ContactTags(row: Row)
    ensures var ls := ContactLines(row);
      forall i :: 0 <= i < |ls| ==> ls[i].tag in {"EMAIL", "WWW"} && ls[i].level > 0
  {
  }

  /** The tags and levels of the link lines. */
  lemma LinkTags(famc: Option<nat>, fams: seq<nat>, obje: Option<nat>)
    ensures var ls := LinkLines(famc, fams, obje);
      forall i :: 0 <= i < |ls| ==> ls[i].tag in {"FAMC", "FAMS", "OBJE"} && ls[i].level > 0
  {
  }

  /** The parts of an INDI record and what is known of their tags and levels. */
  lemma IndiParts(row: Row, gid: nat, famc: Option<nat>, fams: seq<nat>, obje: Option<nat>)
    requires IndiLines(row, gid, famc, fams, obje).Ok?
    ensures BirthLines(row).Ok? && DeathLines(row).Ok?
    ensures IndiLines(row, gid, famc, fams, obje).value
      == IndiHead(row, gid) + BirthLines(row).value + DeathLines(row).value + LinkLines(famc, fams, obje)
    ensures var ls := BirthLines(row).value;
      forall i :: 0 <= i < |ls| ==> ls[i].tag in {"BIRT", "DATE", "PLAC", "ADDR", "CITY", "CTRY"} && ls[i].level > 0
    ensures var ls := DeathLines(row).value;
      forall i :: 0 <= i < |ls| ==> ls[i].tag in {"DEAT", "DATE", "PLAC", "ADDR", "CITY", "CTRY"} && ls[i].level > 0
  {
    if Truthy(row.dateOfBirth) {
      EventTags("BIRT", row.dateOfBirth, row.placeOfBirth);
    }
    if Truthy(row.dateOfDeath) {
      EventTags("DEAT", row.dateOfDeath, row.placeOfDeath);
    }
  }

  /** Among the first lines of an INDI record, only the SEX line can carry a tag other than the name and contact tags. */
  lemma HeadWithTag(row: Row, gid: nat, tag: string)
    requires tag !in {"INDI", "NAME", "GIVN", "SURN", "NICK", "EMAIL", "WWW"}
    ensures WithTag(IndiHead(row, gid), tag) == if tag == "SEX" then [SexLine(row)] else []
  {
    NameTags(row, gid);
    ContactTags(row);
    assert NoTag(NameLines(row, gid), tag);
    assert NoTag(ContactLines(row), tag);
    assert WithTag([SexLine(row)], tag) == if tag == "SEX" then [SexLine(row)] else [] by {
      assert [SexLine(row)][..0] == [];
    }
    WithTagOfMiddle(NameLines(row, gid), [SexLine(row)], ContactLines(row), tag);
  }

  /** The lines with a tag of four blocks, when the second and the fourth have none. */
  lemma WithTagOfBlocks(h: seq<GedLine>, b: seq<GedLine>, d: seq<GedLine>, l: seq<GedLine>, tag: string)
    requires NoTag(b, tag) && NoTag(l, tag)
    ensures WithTag(h + b + d + l, tag) == WithTag(h, tag) + WithTag(d, tag)
  {
    WithTagNone(b, tag);
    WithTagNone(l, tag);
    WithTagAppend(h, b, tag);
    WithTagAppend(h + b, d, tag);
    WithTagAppend(h + b + d, l, tag);
  }

  /** Every INDI record has exactly one SEX line: M when the gender cell is the number 0, F otherwise. */
  lemma SexOfIndividual(row: Row, gid: nat, famc: Option<nat>, fams: seq<nat>, obje: Option<nat>)
    requires IndiLines(row, gid, famc, fams, obje).Ok?
    ensures WithTag(IndiLines(row, gid, famc, fams, obje).value, "SEX")
      == [Tagged(1, "SEX", if row.gender == Int(0) then "M" else "F")]
  {
    assert NoTag(BirthLines(row).value, "SEX") && NoTag(DeathLines(row).value, "SEX") by {
      IndiParts(row, gid, famc, fams, obje);
    }
    assert NoTag(LinkLines(famc, fams, obje), "SEX") by {
      LinkTags(famc, fams, obje);
    }
    var death := DeathLines(row).value;
    WithTagOfBlocks(IndiHead(row, gid), BirthLines(row).value, death, LinkLines(famc, fams, obje), "SEX");
    HeadWithTag(row, gid, "SEX");
    WithTagNone(death, "SEX");
  }

  /** The FAMS lines among the link lines are the FAMS lines of the spouse list. */
  lemma LinksWithFams(famc: Option<nat>, fams: seq<nat>, obje: Option<nat>)
    ensures WithTag(LinkLines(famc, fams, obje), "FAMS") == FamsLines(fams)
  {
    var c: seq<GedLine> := if famc.Some? then [FamcLine(famc.value)] else [];
    var o: seq<GedLine> := if obje.Some? then [ObjeLine(obje.value)] else [];
    assert NoTag(c, "FAMS") && NoTag(o, "FAMS");
    WithTagAll(FamsLines(fams), "FAMS");
    WithTagOfMiddle(c, FamsLines(fams), o, "FAMS");
  }

  /** The lines with a tag of four blocks, when only the last has any. */
  lemma WithTagOfLast(h: seq<GedLine>, b: seq<GedLine>, d: seq<GedLine>, l: seq<GedLine>, tag: string)
    requires WithTag(h, tag) == [] && NoTag(b, tag) && NoTag(d, tag)
    ensures WithTag(h + b + d + l, tag) == WithTag(l, tag)
  {
    WithTagNone(b, tag);
    WithTagNone(d, tag);
    WithTagAppend(h, b, tag);
    WithTagAppend(h + b, d, tag);
    WithTagAppend(h + b + d, l, tag);
  }

  /**
   * The FAMS lines of an INDI record are one per entry of the person's spouse list, in the
   * order of that list (the discovery order of the families, by SpouseIdsAscending).
   */
  lemma FamsOfIndividual(row: Row, gid: nat, famc: Option<nat>, fams: seq<nat>, obje: Option<nat>)
    requires IndiLines(row, gid, famc, fams, obje).Ok?
    ensures WithTag(IndiLines(row, gid, famc, fams, obje).value, "FAMS") == FamsLines(fams)
  {
    assert NoTag(BirthLines(row).value, "FAMS") && NoTag(DeathLines(row).value, "FAMS") by {
      IndiParts(row, gid, famc, fams, obje);
    }
    HeadWithTag(row, gid, "FAMS");
    WithTagOfLast(IndiHead(row, gid), BirthLines(row).value, DeathLines(row).value, LinkLines(famc, fams, obje), "FAMS");
    LinksWithFams(famc, fams, obje);
  }

  /**
   * The DEAT lines of an INDI record: the event line of the death block when a date of death is
   * given, otherwise "1 DEAT Y" when 'is living?' is the number 0, otherwise none.
   */
  lemma DeathOfIndividual(row: Row, gid: nat, famc: Option<nat>, fams: seq<nat>, obje: Option<nat>)
    requires IndiLines(row, gid, famc, fams, obje).Ok?
    ensures WithTag(IndiLines(row, gid, famc, fams, obje).value, "DEAT")
      == if Truthy(row.dateOfDeath) then [Bare(1, "DEAT")]
         else if row.isLiving == Int(0) then [Tagged(1, "DEAT", "Y")]
         else []
  {
    assert NoTag(BirthLines(row).value, "DEAT") by {
      IndiParts(row, gid, famc, fams, obje);
    }
    assert NoTag(LinkLines(famc, fams, obje), "DEAT") by {
      LinkTags(famc, fams, obje);
    }
    var death := DeathLines(row).value;
    WithTagOfBlocks(IndiHead(row, gid), BirthLines(row).value, death, LinkLines(famc, fams, obje), "DEAT");
    HeadWithTag(row, gid, "DEAT");
    DeathBlockTag(row);
  }

  /** The DEAT lines of the death block itself. */
  lemma DeathBlockTag(row: Row)
    requires DeathLines(row).Ok?
    ensures WithTag(DeathLines(row).value, "DEAT")
      == if Truthy(row.dateOfDeath) then [Bare(1, "DEAT")]
         else if row.isLiving == Int(0) then [Tagged(1, "DEAT", "Y")]
         else []
  {
    var death := DeathLines(row).value;
    if Truthy(row.dateOfDeath) {
      EventHead("DEAT", row.dateOfDeath, row.placeOfDeath);
      LeadingWithTag(death, "DEAT");
    } else if row.isLiving == Int(0) {
      assert WithTag(death, "DEAT") == [death[0]] by {
        assert death[..0] == [];
      }
    }
  }

  /** An event block opens with the event line; the lines after it carry date and place tags. */
  lemma EventHead(tag: string, date: Cell, place: string)
    requires EventLines(tag, date, place).Ok?
    ensures var ls := EventLines(tag, date, place).value;
      && |ls| > 0 && ls[0] == Bare(1, tag)
      && forall i :: 1 <= i < |ls| ==> ls[i].tag in {"DATE", "PLAC", "ADDR", "CITY", "CTRY"}
  {
    var ls := EventLines(tag, date, place).value;
    var places := PlaceLines(place).value;
    assert ls == [Bare(1, tag), Tagged(2, "DATE", DateText(date).value)] + places;
    PlaceTags(place);
    forall i | 1 <= i < |ls|
      ensures ls[i].tag in {"DATE", "PLAC", "ADDR", "CITY", "CTRY"}
    {
      if i == 1 {
        assert ls[i].tag == "DATE";
      } else {
        assert ls[i] == places[i - 2];
      }
    }
  }

  /** Lines of which only the first has the tag: selecting the tag gives that first line. */
  lemma LeadingWithTag(ls: seq<GedLine>, tag: string)
    requires |ls| > 0 && ls[0].tag == tag
    requires forall i :: 1 <= i < |ls| ==> ls[i].tag != tag
    ensures WithTag(ls, tag) == [ls[0]]
  {
    var rest := ls[1..];
    assert NoTag(rest, tag);
    WithTagNone(rest, tag);
    assert ls == [ls[0]] + rest;
    WithTagAppend([ls[0]], rest, tag);
    assert WithTag([ls[0]], tag) == [ls[0]] by {
      assert [ls[0]][..0] == [];
    }
  }

  /** Blocks whose lines are all nested add no record to the one before them. */
  lemma RecordsOfBlocks(h: seq<GedLine>, b: seq<GedLine>, d: seq<GedLine>, l: seq<GedLine>)
    requires forall i :: 0 <= i < |b| ==> b[i].level > 0
    requires forall i :: 0 <= i < |d| ==> d[i].level > 0
    requires forall i :: 0 <= i < |l| ==> l[i].level > 0
    ensures Records(h + b + d + l) == Records(h)
  {
    NestedNoRecords(b);
    NestedNoRecords(d);
    NestedNoRecords(l);
    RecordsAppend(h, b);
    RecordsAppend(h + b, d);
    RecordsAppend(h + b + d, l);
  }

  /** Lines of which only the first is at level 0 form one record. */
  lemma LeadingRecord(ls: seq<GedLine>)
    requires |ls| > 0 && ls[0].level == 0
    requires forall i :: 1 <= i < |ls| ==> ls[i].level > 0
    ensures Records(ls) == [ls[0]]
  {
    assert ls == [ls[0]] + ls[1..];
    OneRecord(ls[0], ls[1..]);
  }

  /** Two blocks of nested lines add no record to the lines before them. */
  lemma RecordsOfTwoBlocks(h: seq<GedLine>, b: seq<GedLine>, c: seq<GedLine>)
    requires forall i :: 0 <= i < |b| ==> b[i].level > 0
    requires forall i :: 0 <= i < |c| ==> c[i].level > 0
    ensures Records(h + b + c) == Records(h)
  {
    NestedNoRecords(b);
    NestedNoRecords(c);
    RecordsAppend(h, b);
    RecordsAppend(h + b, c);
  }

  /** The first lines of an INDI record start one record, headed @I<gid>@ INDI. */
  lemma HeadRecords(row: Row, gid: nat)
    ensures Records(IndiHead(row, gid)) == [IndiHeader(gid)]
  {
    NameTags(row, gid);
    ContactTags(row);
    LeadingRecord(NameLines(row, gid));
    RecordsOfTwoBlocks(NameLines(row, gid), [SexLine(row)], ContactLines(row));
  }

  /** An INDI record is one record. */
  lemma IndiRecordShape(row: Row, gid: nat, famc: Option<nat>, fams: seq<nat>, obje: Option<nat>)
    requires IndiLines(row, gid, famc, fams, obje).Ok?
    ensures Records(IndiLines(row, gid, famc, fams, obje).value) == [IndiHeader(gid)]
  {
    IndiParts(row, gid, famc, fams, obje);
    LinkTags(famc, fams, obje);
    RecordsOfBlocks(IndiHead(row, gid), BirthLines(row).value, DeathLines(row).value, LinkLines(famc, fams, obje));
    HeadRecords(row, gid);
  }

  /** The INDI record headers of the rows, in row order. */
  function IndiHeaders(rows: seq<Row>, ids: map<string, nat>): (hs: seq<GedLine>)
    requires Numbered(rows, ids)
    ensures |hs| == |rows| && forall i :: 0 <= i < |rows| ==> hs[i] == IndiHeader(ids[rows[i].id])
  {
    if |rows| == 0 then [] else IndiHeaders(rows[..|rows| - 1], ids) + [IndiHeader(ids[rows[|rows| - 1].id])]
  }

  /** The INDI section holds one INDI record per row, in row order. */
  lemma {:induction false} IndiSectionRecords(rows: seq<Row>, ids: map<string, nat>, reg: Registry,
                                              smap: map<string, seq<nat>>, picdir: string, existing: set<string>)
    requires Numbered(rows, ids) && IndiSection(rows, ids, reg, smap, picdir, existing).Ok?
    ensures Records(IndiSection(rows, ids, reg, smap, picdir, existing).value) == IndiHeaders(rows, ids)
    decreases |rows|
  {
    if |rows| > 0 {
      var rows' := rows[..|rows| - 1];
      var row := rows[|rows| - 1];
      IndiSectionRecords(rows', ids, reg, smap, picdir, existing);
      var famc := Famc(reg, row).value;
      IndiRecordShape(row, ids[row.id], famc, FamsOf(smap, row.id), ObjeIndex(rows', row, picdir, existing));
      RecordsAppend(IndiSection(rows', ids, reg, smap, picdir, existing).value,
                    RowLines(rows', row, ids, reg, smap, picdir, existing).value);
    }
  }

  /** The OBJE record headers @O0@ .. @O<n-1>@. */
  function ObjeHeaders(n: nat): (hs: seq<GedLine>)
    ensures |hs| == n && forall k :: 0 <= k < n ==> hs[k] == ObjeHeader(k)
  {
    if n == 0 then [] else ObjeHeaders(n - 1) + [ObjeHeader(n - 1)]
  }

  /** The OBJE records are numbered from 0, one per picture. */
  lemma {:induction false} ObjeRecordsHeaders(pics: seq<string>)
    ensures Records(ObjeRecords(pics)) == ObjeHeaders(|pics|)
    decreases |pics|
  {
    if |pics| > 0 {
      var k := |pics| - 1;
      ObjeRecordsHeaders(pics[..k]);
      OneRecord(ObjeHeader(k), [Tagged(1, "FILE", pics[k]), Tagged(2, "FORM", "jpg")]);
      assert ObjeRecord(k, pics[k]) == [ObjeHeader(k)] + [Tagged(1, "FILE", pics[k]), Tagged(2, "FORM", "jpg")];
      RecordsAppend(ObjeRecords(pics[..k]), ObjeRecord(k, pics[k]));
    }
  }

  /** The header holds two records: HEAD and the submitter. */
  lemma HeaderRecords(date: string, time: string, first: string, last: string)
    ensures Records(Header(date, time, first, last)) == [Bare(0, "HEAD"), GedLine(0, Some("SUBM"), "SUBM", None)]
  {
    var subm := GedLine(0, Some("SUBM"), "SUBM", None);
    var name := Tagged(1, "NAME", first + " /" + last + "/");
    OneRecord(Bare(0, "HEAD"), HeadDetails(date, time));
    OneRecord(subm, [name]);
    assert [subm, name] == [subm] + [name];
    RecordsAppend([Bare(0, "HEAD")] + HeadDetails(date, time), [subm, name]);
  }

  /** The records of five consecutive parts. */
  lemma RecordsOfFive(a: seq<GedLine>, b: seq<GedLine>, c: seq<GedLine>, d: seq<GedLine>, e: seq<GedLine>)
    ensures Records(a + b + c + d + e) == Records(a) + Records(b) + Records(c) + Records(d) + Records(e)
  {
    RecordsAppend(a, b);
    RecordsAppend(a + b, c);
    RecordsAppend(a + b + c, d);
    RecordsAppend(a + b + c + d, e);
  }

  /**
   * The order of the records of the document: HEAD and the submitter, the INDI records in row
   * order, the FAM records in discovery order, the OBJE records numbered from 0, and the trailer.
   */
  lemma DocumentOrder(t: seq<Row>, picdir: string, existing: set<string>,
                      date: string, time: string, first: string, last: string)
    requires Gedcom(t, picdir, existing, date, time, first, last).Ok?
    ensures Records(Gedcom(t, picdir, existing, date, time, first, last).value)
      == [Bare(0, "HEAD"), GedLine(0, Some("SUBM"), "SUBM", None)]
         + IndiHeaders(t, IdMap(t))
         + FamHeaders(FamiliesOf(t))
         + ObjeHeaders(|Pictures(t, picdir, existing)|)
         + [Trailer()]
  {
    var ids := IdMap(t);
    var reg := FamiliesOf(t);
    var indi := IndiSection(t, ids, reg, SpouseMap(reg), picdir, existing).value;
    var fams := FamRecords(reg, ids).value;
    var pics := Pictures(t, picdir, existing);
    RecordsOfFive(Header(date, time, first, last), indi, fams, ObjeRecords(pics), [Trailer()]);
    HeaderRecords(date, time, first, last);
    IndiSectionRecords(t, ids, reg, SpouseMap(reg), picdir, existing);
    FamRecordsHeaders(reg, ids);
    ObjeRecordsHeaders(pics);
    assert Records([Trailer()]) == [Trailer()] by {
      assert [Trailer()][..0] == [];
    }
  }

  /** With distinct IDs, the INDI record of row i is headed @I<i+1>@. */
  lemma IndiNumbering(rows: seq<Row>, i: nat)
    requires DistinctIds(rows) && i < |rows|
    ensures IndiHeaders(rows, IdMap(rows))[i] == IndiHeader(i + 1)
  {
    IdMapDistinct(rows, i);
  }

  /** The pointer @I<n>@ to a known ID's synthetic ID is that of some row's INDI header. */
  lemma KnownPersonHeader(rows: seq<Row>, p: string)
    requires p in IdMap(rows)
    ensures exists j :: 0 <= j < |rows| && Pointer("I" + NatText(IdMap(rows)[p])) == Pointer(IndiHeaders(rows, IdMap(rows))[j].xref.value)
  {
    IdMapDomain(rows, p);
    var j :| 0 <= j < |rows| && rows[j].id == p;
    assert IndiHeaders(rows, IdMap(rows))[j] == IndiHeader(IdMap(rows)[p]);
  }

  /** Every HUSB and WIFE line of `ls` carries the pointer of some row's INDI header. */
  ghost predicate ParentsPointAtHeaders(ls: seq<GedLine>, rows: seq<Row>)
  {
    forall k :: 0 <= k < |ls| && (ls[k].tag == "HUSB" || ls[k].tag == "WIFE") ==>
      exists j :: 0 <= j < |rows| && ls[k].value == Some(Pointer(IndiHeaders(rows, IdMap(rows))[j].xref.value))
  }

  /** Lines whose HUSB and WIFE pointers name known IDs point at INDI headers of the rows. */
  lemma RolesResolve(rows: seq<Row>, ls: seq<GedLine>)
    requires RolesKnown(ls, IdMap(rows))
    ensures ParentsPointAtHeaders(ls, rows)
  {
    var ids := IdMap(rows);
    forall k | 0 <= k < |ls| && (ls[k].tag == "HUSB" || ls[k].tag == "WIFE")
      ensures exists j :: 0 <= j < |rows| && ls[k].value == Some(Pointer(IndiHeaders(rows, ids)[j].xref.value))
    {
      var p :| p in ids && ls[k].value == Some(Pointer("I" + NatText(ids[p])));
      KnownPersonHeader(rows, p);
    }
  }

  /** Every HUSB and WIFE line of the printed FAM records points at the header of some INDI record. */
  lemma ParentPointerResolves(rows: seq<Row>)
    requires FamRecords(FamiliesOf(rows), IdMap(rows)).Ok?
    ensures ParentsPointAtHeaders(FamRecords(FamiliesOf(rows), IdMap(rows)).value, rows)
  {
    RolesResolve(rows, FamRecords(FamiliesOf(rows), IdMap(rows)).value);
  }

  /** The lines of `ls` tagged `tag` are none when p is unknown, else one line pointing at the INDI header of a row whose ID is p. */
  ghost predicate RoleNamesRow(ls: seq<GedLine>, tag: string, p: string, rows: seq<Row>) {
    if p == "" then WithTag(ls, tag) == []
    else exists j :: 0 <= j < |rows| && rows[j].id == p
                     && WithTag(ls, tag) == [Tagged(1, tag, Pointer(IndiHeaders(rows, IdMap(rows))[j].xref.value))]
  }

  /** A role line pointing at a known ID's synthetic ID points at the INDI header of a row with that ID. */
  lemma RoleResolves(rows: seq<Row>, ls: seq<GedLine>, tag: string, p: string)
    requires p == "" ==> WithTag(ls, tag) == []
    requires p != "" ==> p in IdMap(rows) && WithTag(ls, tag) == [Tagged(1, tag, Pointer("I" + NatText(IdMap(rows)[p])))]
    ensures RoleNamesRow(ls, tag, p, rows)
  {
    if p != "" {
      IdMapDomain(rows, p);
      var j :| 0 <= j < |rows| && rows[j].id == p;
      assert IndiHeaders(rows, IdMap(rows))[j] == IndiHeader(IdMap(rows)[p]);
    }
  }

  /**
   * The HUSB line of a printed FAM record points at the INDI record of a row whose ID is the
   * family's father, and the WIFE line at one whose ID is its mother; an unknown parent gets no line.
   */
  lemma FamParentPointers(rows: seq<Row>, f: nat)
    requires f < |FamiliesOf(rows)| && FamRecord(FamiliesOf(rows)[f], IdMap(rows)).Ok?
    ensures RoleNamesRow(FamRecord(FamiliesOf(rows)[f], IdMap(rows)).value, "HUSB", FamiliesOf(rows)[f].parents.father, rows)
    ensures RoleNamesRow(FamRecord(FamiliesOf(rows)[f], IdMap(rows)).value, "WIFE", FamiliesOf(rows)[f].parents.mother, rows)
  {
    var e := FamiliesOf(rows)[f];
    var ids := IdMap(rows);
    FamRecordParents(e, ids);
    RoleResolves(rows, FamRecord(e, ids).value, "HUSB", e.parents.father);
    RoleResolves(rows, FamRecord(e, ids).value, "WIFE", e.parents.mother);
  }

  /** Every CHIL pointer of a family names the INDI record of a row whose parents are the family's. */
  lemma ChildPointerResolves(rows: seq<Row>, f: nat, x: nat)
    requires f < |FamiliesOf(rows)| && x in FamiliesOf(rows)[f].children
    ensures exists j :: 0 <= j < |rows| && PairOf(rows[j]) == FamiliesOf(rows)[f].parents
                        && IndiHeaders(rows, IdMap(rows))[j] == IndiHeader(x)
  {
    ChildMembership(rows, f, x);
    var j :| 0 <= j < |rows| && HasKnownParent(rows[j]) && PairOf(rows[j]) == FamiliesOf(rows)[f].parents
             && IdMap(rows)[rows[j].id] == x;
    assert IndiHeaders(rows, IdMap(rows))[j] == IndiHeader(x);
  }

  /** The corrected FAMC line of a row points at the FAM record of the row's parents. */
  lemma FamcPointerResolves(rows: seq<Row>, i: nat)
    requires i < |rows| && HasKnownParent(rows[i])
    ensures var famc := Famc(FamiliesOf(rows), rows[i]);
      var fams := FamHeaders(FamiliesOf(rows));
      && famc.Ok? && famc.value.Some?
      && 1 <= famc.value.value <= |fams|
      && FamiliesOf(rows)[famc.value.value - 1].parents == PairOf(rows[i])
      && FamcLine(famc.value.value).value == Some(Pointer(fams[famc.value.value - 1].xref.value))
  {
    FamcOfRow(rows, i);
  }

  /**
   * The FAMC line as written points at no FAM record once the family number reaches 1000:
   * its pointer holds a comma, and no FAM identifier does.
   */
  lemma FamcAsWrittenDangles(id: nat, n: nat)
    requires id >= 1000
    ensures FamcLineAsWritten(id).value != Some(Pointer(FamHeader(n).xref.value))
  {
    var g := GroupedText(id);
    var d := NatText(n);
    GroupedDiffers(id);
    assert g != d by {
      var k :| 0 <= k < |g| && g[k] == ',';
      assert !IsDigit(g[k]);
    }
    assert Pointer(FamHeader(n).xref.value) == "@F" + d + "@";
    Unwrap(g);
    Unwrap(d);
  }

  /** The text between "@F" and "@" can be read back. */
  lemma Unwrap(s: string)
    ensures |"@F" + s + "@"| == |s| + 3 && ("@F" + s + "@")[2..|s| + 2] == s
  {
  }

  /** The smallest input that shows it: family 1000 gets "1 FAMC @F1,000@" while its record is "0 @F1000@ FAM". */
  lemma FamcAsWrittenExample()
    ensures FamcLineAsWritten(1000).value == Some("@F1,000@")
    ensures FamHeader(1000).xref == Some("F1000")
  {
    assert GroupedText(1) == "1";
    assert Pad3(0) == "000";
    assert GroupedText(1000) == "1,000";
    assert NatText(1) == "1" && NatText(10) == "10" && NatText(100) == "100";
    assert NatText(1000) == "1000";
    assert "@F" + "1,000" + "@" == "@F1,000@";
    assert "F" + "1000" == "F1000";
  }
}

=== FILE: wrappers.dfy ===
/** Option and Result, and the kinds of runtime failure the converter can raise. */
module Wrappers {

  datatype Option<+T> = None | Some(value: T)

  /** The exceptions the converter raises on bad input, named after the Python ones. */
  datatype GedcomError =
    | ValueError(text: string)   // int() applied to text that is not a decimal integer
    | IndexError(what: string)   // a month number outside the month-name table, a place with one token
    | KeyError(key: string)      // a parent ID that is not the ID of any row, an unregistered parent pair

  /** The value of a computation that may raise one of the errors above. */
  datatype Result<+T> = Ok(value: T) | Err(error: GedcomError) {

    predicate IsFailure() {
      Err?
    }

    function PropagateFailure<U>(): Result<U>
      requires Err?
    {
      Err(error)
    }

    function Extract(): T
      requires Ok?
    {
      value
    }
  }
}
